=== FILE: README.md ===
# HIPPO_Gym trial controller in Dafny

This project models the `Trial` class of HIPPO_Gym (`App/trial.py`). A trial is
the server-side session that runs one human participant through a sequence of
episodes of a gym environment. Each turn of its main loop polls the websocket
pipe for a message and dispatches it. While the trial is playing, the loop also
renders a frame, sends it, and steps the agent with the participant's current
action. The steps are logged to a telemetry file, and the trial ends after a
configured number of episodes.

The model is functional. One trial is an immutable `Sessions.Session` record,
and each method of the class is a pure function of the session. The methods
that can raise return `Result<Session, Fault>`. The others (`Send`, `SendUI`,
`RenderFrame`, `HandleAction`, `HandleFramerateChange`, `CreateFile`,
`UpdateEntry`) return a `Session`.
The trial's effects on its collaborators are ordinary fields of the session:

- `sent` holds the pipe messages `Done`, `Upload`, `UI` and `Frame(id)`;
- `agentCalls` holds the calls into the agent: start, reset, step, render and close;
- `written` holds the records pickled into the telemetry file.

A `Fault` is one of the two exceptions `cPickle.dump` raises in reachable
states. One is dumping into `None` (for example, a `stop` in whole-trial mode
before any file was opened). The other is dumping into a closed file.

Modules, in dependency order:

- `Wrappers`: `Option` and `Result`.
- `Text`: the Python primitives the handlers use. These are `str.strip()` with
  the full `isspace()` set, `str.lower()` on ASCII letters, `int()` on a
  stripped token, `list.index()`, and decimal formatting of the episode number.
- `Settings`: the configuration with the controller's `config.get(key, default)`
  defaults applied.
- `Protocol`: inbound messages, outbound pipe messages, agent calls, log entries
  and pickled records.
- `Sessions`: the session record, the reachable-state invariant `Valid`, and `Init`.
- `Lifecycle`: rendering a frame, `create_file`, `reset`, `check_trial_done`,
  `end`, `take_step`, `save_entry` and `save_record`.
- `Dispatch`: `handle_message` and its handlers for commands, frame-rate
  changes and actions.
- `Loop`: `check_message`, one iteration of `run`, and runs over a finite
  sequence of iterations.
- `Scenarios`: two concrete runs.
  - A complete one-episode trial: identify, `start`, pick an action, and the
    step that ends the episode.
  - A first message that ends a spent trial and then restarts play.

Three behaviours of the code are easy to misread, and the model keeps each
one as written.

- The loop stops when `done` is set, but `while not self.done` (App/trial.py:53)
  is tested only between iterations. So one message can end the trial and still
  resume play. This happens when the message carries both a `userId` and
  `start` and no episodes remain: identification calls `reset`, `reset` calls
  `end`, and the `start` command then sets `play` again. The rest of that
  iteration renders a frame and steps the agent after `agent.close()`.
  `Scenarios.PlayResumesAfterEnd` proves it.
- `handle_command` has a branch that sends the UI descriptor on a `requestUI`
  command (App/trial.py:155-156). It compares the lower-cased command with
  `requestUI`, which contains an upper-case letter, so that branch can never
  fire. `Dispatch.RequestUINeverMatches` and `Dispatch.RequestUIIgnored` prove it.
- Only JSON decoding errors are caught (App/trial.py:114-117). The pickling
  calls in `end` and `save_entry` still raise when no file is open, or when the
  file has already been closed. `Lifecycle.End`, `Lifecycle.SaveEntry`,
  `Lifecycle.EndEpisode` and `Lifecycle.Write` state exactly when.

In whole-trial mode, `save_entry` appends the same `ep_log` list object to
`trial_log` each time, and `ep_log` is never cleared. So `trial_log` always
holds k references to the one current `ep_log`. The model keeps only the count
`trialLogRefs`, and `Sessions.TrialLog` rebuilds the value the pickler sees.

## Model

| member | source | states |
|---|---|---|
| Settings.Resolve | App/trial.py:163-168 | a missing key takes its default: step 5, minimum 1 and maximum 90 (these lines), starting rate 30 (line 28), 20 episodes (line 87) and the six default controls (lines 229-231), and falsy for the two switches; a present key is taken as given |
| Sessions.Init | App/trial.py:16-35 | a fresh trial holds the index of the first `noop` in the action space, frame 0, episode 0, no user, the given trial id, empty episode and trial logs, no file, name or path, is not playing or done, has the configured starting rate, and has made only the agent's start call; it satisfies the reachable-state invariant |
| Text.Strip | App/trial.py:146 | stripping never lengthens the token, and a non-empty result neither begins nor ends with whitespace |
| Text.Lower | App/trial.py:146 | lower-casing keeps the length, maps each character by ASCII lower-casing, and leaves no upper-case letter |
| Text.NatToString | App/trial.py:282 | the rendering is a non-empty run of decimal digits whose value is the number, with no leading zero unless the number is 0 |
| Text.Normalize | App/trial.py:146 | a normalised token has no upper-case letter, does not begin or end with whitespace, and is no longer than the input |
| Text.StripSlice | App/trial.py:169 | the stripped text is the contiguous slice of the input that begins right after its leading whitespace |
| Text.StripTail | App/trial.py:186 | everything after the stripped text is whitespace |
| Text.StripIdempotent | App/trial.py:186 | stripping an already stripped token changes nothing |
| Text.NormalizeFixedPoint | App/trial.py:186 | a token with no whitespace and no upper-case letter normalises to itself |
| Text.IndexOf | App/trial.py:189 | the result is present exactly when the element occurs, and is then the position of its first occurrence |
| Text.ParseInt | App/trial.py:176 | a token parses exactly when it is an optional sign followed by at least one decimal digit; the value is the digits' value, negated after a `-` |
| Text.ParseIntToString | App/trial.py:176 | parsing the decimal rendering of any integer gives that integer back |
| Text.NatToStringInjective | App/trial.py:282 | two numbers with the same decimal rendering are equal |
| Protocol.ErrorRecord | App/trial.py:117 | the error record has no controlled key, and holds exactly `error: unable to parse message` and the current frame id |
| Loop.CheckMessage | App/trial.py:106-119 | there is no message exactly when nothing arrived; an unparsable payload yields the error record with the current frame id; a parsed payload is passed through |
| Loop.ErrorRecordIsDispatched | App/trial.py:114-117 | the error record is a non-empty dictionary, so the loop always dispatches it |
| Dispatch.HandleMessage | App/trial.py:121-139 | the message is appended to the episode log exactly once, after everything else; a message without a command fails exactly when it identifies a user while the episodes are spent in whole-trial mode with no file open; a user id is adopted only when none is set, and then becomes the generated id if the supplied one is empty; an adopted user gets the UI and exactly one new frame, numbered one past the previous one, and the agent is reset (or, when the episodes are spent, closed) and then rendered before any command acts; when episodes remain and no command is present, identification opens the first file `Trials/<name>` for the adopted user and counts one more episode; when they are spent, the trial is left done; the human action changes only when neither a command nor a frame-rate change is present; the frame rate changes only when no command is present |
| Dispatch.WinningFieldHandled | App/trial.py:126-139 | after identification, the outcome is the handler of the highest-priority non-empty field applied to the identified session, or that session unchanged when no field is present, with the message then appended to the episode log; a failing identification or command is the outcome |
| Dispatch.Identify | App/trial.py:126-131 | identification happens only when no user is set and the message has a `userId` key; it sends the UI first and a frame last, leaves the episode log, action and rate alone, and resets the agent, or closes it exactly when the episodes are spent, and then renders; when episodes remain it succeeds, opens the file `Trials/<name>` named for the adopted user and counts one more episode, keeping the done and play flags; when they are spent it leaves the trial done and paused; it fails exactly when the episodes are spent in whole-trial mode with no file open, and when it ends such a spent trial it flushes the whole trial log into the file and empties it |
| Dispatch.Welcome | App/trial.py:127-131 | after adoption the user is the adopted id, one frame is rendered, and the episode count moves only within its bound; when episodes remain it succeeds, opens the adopted user's file and counts one more episode; when they are spent it leaves the trial done and paused; it fails exactly when the episodes are spent in whole-trial mode with no file open, and otherwise, with the episodes spent in whole-trial mode, the trial log is flushed and emptied |
| Dispatch.WelcomeSent | App/trial.py:128-131 | identification's pipe traffic begins with the UI and ends with the single new frame |
| Dispatch.WelcomeCalls | App/trial.py:129-130 | identification calls the agent with close then render exactly when the episodes are spent, and with reset then render otherwise |
| Dispatch.AdoptedId | App/trial.py:127 | the adopted id is never empty, and it is the supplied id whenever that is non-empty |
| Dispatch.Act | App/trial.py:132-138 | a non-empty command is handled by the command handler; otherwise a non-empty frame-rate change by the frame-rate handler; otherwise a non-empty action by the action handler; otherwise nothing happens; so at most one field is acted on and a message without a command cannot fail |
| Dispatch.CommandTakesPriority | App/trial.py:132-133 | with a command present, the message's frame-rate and action fields make no difference to the outcome |
| Dispatch.FrameRateTakesPriority | App/trial.py:134-135 | with no command and a frame-rate change present, an empty or missing command field and the action field make no difference |
| Dispatch.ParseErrorOnlyLogged | App/trial.py:114-139 | dispatching the error record only appends it to the episode log |
| Dispatch.UpdateEntry | App/trial.py:194-198 | one entry is appended to the episode log and nothing else changes |
| Dispatch.HandleCommand | App/trial.py:141-156 | `start` plays, `stop` ends the trial, `reset` resets, `pause` pauses, and any other normalised command changes nothing; no command changes the frame counter, the episode log, the user, the action or the rate, and every command only appends agent calls and never clears `done`; in per-episode mode no command touches the trial log, while in whole-trial mode `stop`, or `reset` once the episodes are spent, writes out the trial log and empties it |
| Dispatch.RequestUINeverMatches | App/trial.py:146-155 | no normalised command equals `requestUI` |
| Dispatch.RequestUIIgnored | App/trial.py:155-156 | a UI request, in any spelling, leaves the session unchanged |
| Dispatch.HandleFramerateChange | App/trial.py:158-180 | with changes disallowed nothing changes; `faster` and `slower` move by one step when the result stays strictly inside the bounds; a number strictly between the bounds is adopted; any change is one of those three cases, and nothing but the rate changes |
| Dispatch.FramerateStaysInBounds | App/trial.py:163-180 | with a non-negative step, a rate strictly inside the bounds stays strictly inside them |
| Dispatch.StepBeyondBoundIgnored | App/trial.py:170-180 | `faster` or `slower` that would reach or cross its bound falls through to a failing integer parse and changes nothing |
| Dispatch.OutOfRangeRateIgnored | App/trial.py:175-178 | a requested number at or beyond either bound is ignored |
| Dispatch.ResolveAction | App/trial.py:186-191 | a listed token maps to the index of its first occurrence; any other token maps to 0 |
| Dispatch.HandleAction | App/trial.py:182-192 | the action is always overwritten: with the first index of the normalised token when it is listed, otherwise with 0; the result is a valid index whenever the action space is non-empty |
| Dispatch.ActionNameSelectsCode | App/trial.py:186-192 | naming an action by its own first-occurring, already normalised entry selects exactly that action's index |
| Lifecycle.RenderFrame | App/trial.py:206-226 | rendering raises the frame counter by exactly one and sends one frame that carries the new id |
| Lifecycle.SendUI | App/trial.py:228-233 | the configured control list is sent, and no frame id changes |
| Lifecycle.CreateFile | App/trial.py:274-286 | the file `Trials/<name>` is opened, and its name and path are remembered |
| Lifecycle.EpisodeFileNamesDistinct | App/trial.py:279-282 | in per-episode mode, two different episodes of the same user never share a file name |
| Lifecycle.TrialFileNameFixed | App/trial.py:279-280 | in whole-trial mode, the file name does not depend on the episode |
| Lifecycle.CloseFile | App/trial.py:100-101 | closing keeps the file object in place, marked closed |
| Lifecycle.Write | App/trial.py:262 | pickling succeeds exactly when the file is open; it fails one way on no file and another on a closed file; on success, one record is written to the open path |
| Lifecycle.SaveRecord | App/trial.py:265-272 | the whole trial log is pickled, and it is then empty; this fails exactly when no file is open |
| Lifecycle.End | App/trial.py:89-104 | ending succeeds exactly when no trial log must be flushed or a file is open; it sends `done`, closes the agent, flushes the trial log in whole-trial mode, closes and hands off any file without naming a bucket, and leaves the trial done and paused |
| Lifecycle.Reset | App/trial.py:63-87 | once the episode count reaches its maximum, resetting is ending; otherwise it resets the agent, closes the previous file and hands it off (naming the bucket) when uploads are on, opens the next file, and counts exactly one more episode; the frame counter is untouched |
| Lifecycle.SaveEntry | App/trial.py:247-263 | in whole-trial mode one more reference to the episode log is kept, and the log itself is kept; otherwise the log is pickled to the open file and then emptied, which fails when no file is open |
| Lifecycle.EndEpisode | App/trial.py:243-245 | saving the finished episode then resetting: one reset call, or a close when the episodes are spent, and then the trial is done and paused; when episodes remain, the reset rotates the file: the next episode's file `Trials/<name>` is open, one more episode is counted, the flags are kept, and the only pipe message is the upload hand-off of the previous file when uploads are on and a file existed; per-episode mode pickles the log to the open file and empties it, and fails without one; whole-trial mode keeps one more reference, or flushes `n + 1` references to the log on the last episode; it succeeds exactly when the file is open, except in whole-trial mode before the last episode, where it always succeeds |
| Lifecycle.TakeStep | App/trial.py:235-245 | the agent is stepped with the current action and the result is logged; a step that does not finish the episode changes nothing else, exactly; a finishing step then makes exactly one further agent call, a reset or (when the episodes are spent) a close, and either one more episode is counted or the trial is done; when episodes remain, the file is rotated to the next episode's file, with the upload hand-off of the previous one when uploads are on; in whole-trial mode a finishing step adds one reference to the episode log, or, on the last episode, flushes all references and empties the trial log; in per-episode mode it pickles and empties the episode log; a finishing step succeeds exactly when the file is open, except in whole-trial mode before the last episode |
| Loop.Iterate | App/trial.py:53-61 | one iteration never decreases the frame counter or the episode count, only appends to the pipe traffic, and never replaces an established user |
| Loop.Receive | App/trial.py:54-56 | no payload, or a parsed empty dictionary, changes nothing; an unparsable payload only logs the error record; in every case the frame counter and the episode count do not decrease and the pipe traffic is append-only |
| Loop.Advance | App/trial.py:57-60 | a paused trial does nothing more in an iteration; a playing one sends the next frame, numbered one past the previous one, and calls render and then step with the current action; a step that does not finish the episode is logged and changes no episode count |
| Loop.PausedIteration | App/trial.py:53-61 | a paused iteration with no payload changes nothing, and one with an unparsable payload only logs the error record |
| Loop.IterateDispatches | App/trial.py:53-60 | an iteration with a message dispatches it, then renders and steps exactly when dispatch left the trial playing |
| Loop.HandleMessageKeepsValid | App/trial.py:121-139 | dispatch keeps the reachable-state invariant: valid action index, episode bound, non-empty user, frames numbered 1 to `frameId` |
| Loop.PlayKeepsValid | App/trial.py:57-60 | rendering and stepping keep the reachable-state invariant |
| Loop.IterateKeepsValid | App/trial.py:53-61 | one iteration keeps the reachable-state invariant |
| Loop.Run | App/trial.py:53-61 | a finished trial does nothing more; over a run the frame counter and the episode count never decrease, and an established user never changes |
| Loop.RunKeepsValid | App/trial.py:53-61 | every state a run reaches from a valid state is valid |
| Loop.TrialBounds | App/trial.py:71-87 | from a fresh trial, the episode count never exceeds `max(maxEpisodes, 0)`; the frames sent are numbered 1, 2, ... up to `frameId` with no gap or repeat; the action stays a valid index |
| Scenarios.PickSelectsOne | App/trial.py:186-192 | naming the second action selects index 1 and changes nothing else |
| Scenarios.IdentifyStep | App/trial.py:126-131 | a fresh trial's first message identifies the user, opens `Trials/episode_0_user_<user>`, sends the UI and frame 1, and logs the message |
| Scenarios.StartStep | App/trial.py:147-148 | `start` sets play, so the same iteration renders the next frame and steps the agent |
| Scenarios.FinishStep | App/trial.py:241-245 | a step that finishes the last episode pickles the episode log, and the reset that follows ends the trial, closing and handing off the file |
| Scenarios.OneEpisodeTrial | App/trial.py:53-61 | a one-episode trial driven by identify, `start` and one action ends done after exactly one episode and three frames, with the exact pipe traffic, agent calls and pickled record |
| Scenarios.IdentificationEndsSpentTrial | App/trial.py:129 | identifying a user when no episodes remain ends the trial at once, and still renders a frame after closing the agent |
| Scenarios.PlayResumesAfterEnd | App/trial.py:126-135 | when no episodes remain, a first message carrying a user and `start` leaves the trial both done and playing, and the agent is rendered and stepped after it was closed |
| Scenarios.SpentTrialResumes | App/trial.py:53-60 | from any unidentified session whose episodes are spent, a message with a user id and `start` ends the trial and then plays: close, render, render and step |
| Scenarios.SpentStartHandled | App/trial.py:126-133 | dispatching that message leaves the trial done, playing, and with the agent closed and rendered |
| Scenarios.PlayingStep | App/trial.py:57-60 | a playing iteration whose step does not finish the episode renders and steps, and keeps the done and play flags |
| Scenarios.IdentificationLogged | App/trial.py:126-139 | a message carrying only a user id, sent to a session with an empty episode log, has the identification as its whole outcome, with the message as the only log entry |
| Scenarios.FinishingTakeStep | App/trial.py:241-245 | a step whose result finishes the episode is the step call and its log entry followed by the end of the episode |

## Left out

- JSON decoding of inbound payloads is not modelled. A payload is `NoPayload`, `Unparsable`, or a parsed `Message`.
- JSON encoding of outbound messages is not modelled, and neither is the `TypeError` raised when it fails.
- Image work is not modelled: PIL, JPEG and base64 in `get_render`. A frame is only its id, and a render failure is not modelled.
- The pipe transport (`poll`, `recv`, `send`) is not modelled. Sends are recorded in `sent`.
- `time.sleep` pacing is not modelled, and neither is the division by the frame rate. The frame rate is state only.
- The agent's internals (`start`, `reset`, `step`, `render`, `close`) are not modelled. The calls are recorded in `agentCalls`, and `step`'s result is an input to each iteration.
- The YAML reading of `load_config` is not modelled. `Settings.RawSettings` stands for its result.
- `shortuuid` is not modelled. The generated uuid is an input to each iteration, and the trial id is a parameter of `Init`.
- `print(message)` and logging are not modelled.
- Real file I/O and the pickle format are not modelled. The file is `NoFile`, `Open(path)` or `Closed(path)`, and a write is a `Dump` record.
- Sessions.Init: requires `noop` to be in the action space. `list.index` raises otherwise, and that path is not modelled.
- The `command`, `changeFrameRate` and `action` fields are modelled as optional strings. A truthy non-string value (a number, a list) would make `strip()` raise `AttributeError`, and that is not modelled.
- The `userId` field is modelled as an optional string. The code never strips it: a truthy non-string value is adopted as the user id as it is, and a falsy one (`null`, `0`, `false`) is replaced by a generated id, like an empty string. Neither case is modelled, and a `null` value is not distinguished from a missing key.
- A payload that is valid JSON but not an object is not modelled. `Parsed` always carries a dictionary. In the code a falsy one is skipped. A non-zero number or `true` makes the `in` tests of `handle_message` raise `TypeError`. A string or a list is logged as it is, unless it contains `command`, `changeFrameRate` or `action` (as a substring or an element), or `userId` while no user is set; indexing it by that key then raises `TypeError`.
- A `Fault` discards the effects made before the raise, because the result carries no session. In the code they have already happened. `Lifecycle.End` has sent `done` and closed the agent before the failing `save_record`. `Dispatch.Identify` has sent the UI before its reset fails. `Lifecycle.TakeStep` has stepped the agent and logged the result before the finishing save or reset fails.
- A `null` or other falsy non-string value for `command`, `changeFrameRate` or `action` is modelled as a missing key. So a message such as `{"command": null}` counts as an empty dictionary and is not logged, whereas the code logs it.
- The numeric configuration values are integers. A YAML file can supply floats for the frame rates or the episode limit, and that is not modelled.
- Text.Lower: lower-cases ASCII letters only. Other Unicode case mappings are not modelled.
- Text.ParseInt: accepts an optional sign and ASCII digits only. Python's `int()` also accepts underscores between digits and non-ASCII decimal digits.
- Text.Strip: its own contract states only the length and the non-space ends. That it is the slice between the leading and the trailing whitespace is stated by `Text.StripSlice` and `Text.StripTail`.
- Loop.Iterate: its own contract states only monotonicity and user stability. The outcome of each half is stated by `Loop.Receive` and `Loop.Advance`, and for a dispatched message by `Loop.IterateDispatches`.
- Loop.Run: only finite prefixes of the run loop are modelled, one `Tick` per iteration. An endless run that never reaches `done` is not modelled.

=== FILE: dispatch.dfy ===
/**
 * Message dispatch of `Trial`: identification of the user, then at most one
 * of command, frame-rate change and action (in that priority order), then
 * logging of the whole message.
 */
module Dispatch {
  import opened Wrappers
  import opened Text
  import opened Settings
  import opened Protocol
  import opened Sessions
  import opened Lifecycle

  /**
   * The command token of the UI-request branch. The handler compares it with
   * the lower-cased command, so this branch never fires (RequestUINeverMatches).
   */
  const RequestUICommand: string := "requestUI"

  /** A normalised token never equals a literal with an upper-case letter, such as `requestUI`. */
  lemma RequestUINeverMatches(command: string)
    ensures Normalize(command) != RequestUICommand
  {
    var t := Normalize(command);
    if |t| == |RequestUICommand| {
      assert IsUpper(RequestUICommand[7]) && !IsUpper(t[7]);
    }
  }

  /**
   * `handle_command`: `start` plays, `stop` ends the trial, `reset` resets,
   * `pause` pauses; everything else, the UI request included, does nothing.
   */
  function HandleCommand(c: Config, s: Session, command: string): (r: Result<Session, Fault>)
    ensures Normalize(command) == "start" ==> r == Success(s.(play := true))
    ensures Normalize(command) == "stop" ==> r == End(c, s)
    ensures Normalize(command) == "reset" ==> r == Reset(c, s)
    ensures Normalize(command) == "pause" ==> r == Success(s.(play := false))
    ensures Normalize(command) !in ["start", "stop", "reset", "pause"] ==> r == Success(s)
    ensures r.Success? ==> KeepsInputs(s, r.value) && r.value.episode >= s.episode
    ensures r.Success? ==> r.value.episode <= c.maxEpisodes || r.value.episode == s.episode
    ensures r.Success? && !c.TrialMode() ==> r.value.trialLogRefs == s.trialLogRefs
    ensures r.Success? ==> s.agentCalls <= r.value.agentCalls && (s.done ==> r.value.done)
  {
    var t := Normalize(command);
    RequestUINeverMatches(command);
    if t == "start" then Success(s.(play := true))
    else if t == "stop" then End(c, s)
    else if t == "reset" then Reset(c, s)
    else if t == "pause" then Success(s.(play := false))
    else if t == RequestUICommand then Success(SendUI(c, s))
    else Success(s)
  }

  /**
   * A request for the UI descriptor is answered with nothing: `requestUI`, in
   * any spelling that normalises to `requestui`, falls through every branch.
   */
  lemma RequestUIIgnored(c: Config, s: Session, command: string)
    requires Normalize(command) == "requestui"
    ensures HandleCommand(c, s, command) == Success(s)
  {
    assert |Normalize(command)| == 9;
  }

  /**
   * `handle_framerate_change`. When changes are allowed, `faster`/`slower`
   * move by one step only while the result stays strictly inside the bounds;
   * any other token, or a step that would cross a bound, is read as an
   * integer and adopted only when strictly between the bounds.
   */
  function HandleFramerateChange(c: Config, s: Session, change: string): (r: Session)
    ensures r == s.(framerate := r.framerate)
    ensures !c.allowFrameRateChange ==> r == s
    ensures (c.allowFrameRateChange && Normalize(change) == "faster"
             && s.framerate + c.frameRateStepSize < c.maxFrameRate) ==>
              r.framerate == s.framerate + c.frameRateStepSize
    ensures (c.allowFrameRateChange && Normalize(change) == "slower"
             && s.framerate - c.frameRateStepSize > c.minFrameRate) ==>
              r.framerate == s.framerate - c.frameRateStepSize
    ensures c.allowFrameRateChange && ParseInt(Normalize(change)).Some?
            && c.minFrameRate < ParseInt(Normalize(change)).value < c.maxFrameRate
            ==> r.framerate == ParseInt(Normalize(change)).value
    ensures r.framerate != s.framerate ==>
              || (Normalize(change) == "faster" && r.framerate == s.framerate + c.frameRateStepSize < c.maxFrameRate)
              || (Normalize(change) == "slower" && r.framerate == s.framerate - c.frameRateStepSize > c.minFrameRate)
              || (ParseInt(Normalize(change)) == Some(r.framerate) && c.minFrameRate < r.framerate < c.maxFrameRate)
  {
    if !c.allowFrameRateChange then s
    else
      var step, minFR, maxFR := c.frameRateStepSize, c.minFrameRate, c.maxFrameRate;
      var t := Normalize(change);
      if t == "faster" && s.framerate + step < maxFR then s.(framerate := s.framerate + step)
      else if t == "slower" && s.framerate - step > minFR then s.(framerate := s.framerate - step)
      else match ParseInt(t)
        case Some(requested) =>
          if minFR < requested < maxFR then s.(framerate := requested) else s
        case None => s
  }

  /** With a non-negative step, a frame rate strictly inside the bounds stays strictly inside them. */
  lemma FramerateStaysInBounds(c: Config, s: Session, change: string)
    requires c.frameRateStepSize >= 0
    requires c.minFrameRate < s.framerate < c.maxFrameRate
    ensures c.minFrameRate < HandleFramerateChange(c, s, change).framerate < c.maxFrameRate
  {
  }

  /** `faster` at or beyond the upper bound, and `slower` at or beyond the lower one, change nothing. */
  lemma StepBeyondBoundIgnored(c: Config, s: Session, change: string)
    requires Normalize(change) in ["faster", "slower"]
    requires Normalize(change) == "faster" ==> s.framerate + c.frameRateStepSize >= c.maxFrameRate
    requires Normalize(change) == "slower" ==> s.framerate - c.frameRateStepSize <= c.minFrameRate
    ensures HandleFramerateChange(c, s, change) == s
  {
    var t := Normalize(change);
    assert !IsDigit(t[0]) && t[0] != '+' && t[0] != '-';
  }

  /** A numeric request outside the open interval between the bounds changes nothing. */
  lemma OutOfRangeRateIgnored(c: Config, s: Session, change: string, n: int)
    requires ParseInt(Normalize(change)) == Some(n)
    requires n <= c.minFrameRate || n >= c.maxFrameRate
    ensures HandleFramerateChange(c, s, change) == s
  {
    var t := Normalize(change);
    assert t != "faster" && t != "slower" by {
      assert IsDigit(t[0]) || t[0] == '+' || t[0] == '-';
    }
  }

  /** The action code for a normalised token: its first position in the action space, else 0. */
  function ResolveAction(actionSpace: seq<string>, token: string): (code: nat)
    ensures token in actionSpace ==> code < |actionSpace| && actionSpace[code] == token
                                     && token !in actionSpace[..code]
    ensures token !in actionSpace ==> code == 0
  {
    match IndexOf(actionSpace, token)
    case Some(i) => i
    case None => 0
  }

  /** `handle_action`: always overwrites the human action with the resolved code. */
  function HandleAction(c: Config, s: Session, action: string): (r: Session)
    ensures r == s.(humanAction := r.humanAction)
    ensures Normalize(action) in c.actionSpace ==>
              && r.humanAction < |c.actionSpace|
              && c.actionSpace[r.humanAction] == Normalize(action)
              && Normalize(action) !in c.actionSpace[..r.humanAction]
    ensures Normalize(action) !in c.actionSpace ==> r.humanAction == 0
    ensures |c.actionSpace| > 0 ==> r.humanAction < |c.actionSpace|
  {
    s.(humanAction := ResolveAction(c.actionSpace, Normalize(action)))
  }

  /**
   * Naming an action by its own (normalised, first-occurring) entry in the
   * action space selects exactly that action's code.
   */
  lemma {:induction false} ActionNameSelectsCode(c: Config, s: Session, code: nat)
    requires code < |c.actionSpace|
    requires Normalize(c.actionSpace[code]) == c.actionSpace[code]
    requires c.actionSpace[code] !in c.actionSpace[..code]
    ensures HandleAction(c, s, c.actionSpace[code]).humanAction == code
  {
    var name := c.actionSpace[code];
    assert name in c.actionSpace;
  }

  /** `update_entry`: appends one entry to `ep_log`. */
  function UpdateEntry(s: Session, e: Entry): (r: Session)
    ensures r.epLog == s.epLog + [e] && r == s.(epLog := r.epLog)
  {
    s.(epLog := s.epLog + [e])
  }

  /** The id a user is adopted under: the supplied one, or a generated `user_<uuid>` when it is empty. */
  function AdoptedId(supplied: string, uuid: string): (id: string)
    ensures id != ""
    ensures supplied != "" ==> id == supplied
  {
    if supplied != "" then supplied else "user_" + uuid
  }

  /** Whether this message identifies the user: none is set yet and the message has a `userId` key. */
  predicate Adopts(s: Session, m: Message) {
    !Identified(s) && m.userId.Some?
  }

  /**
   * The identification step of `handle_message`: adopt the user id, send the
   * UI, reset, and send one frame.
   */
  function Identify(c: Config, s: Session, m: Message, uuid: string): (r: Result<Session, Fault>)
    ensures !Adopts(s, m) ==> r == Success(s)
    ensures Adopts(s, m) ==> (r.Success? <==> !(TrialDone(c, s) && c.TrialMode() && !s.outfile.Open?))
    ensures Adopts(s, m) && r.Success? && TrialDone(c, s) && c.TrialMode() ==>
              r.value.trialLogRefs == 0 && r.value.written == s.written + [Dump(s.outfile.path, TrialRecord(TrialLog(s)))]
    ensures Adopts(s, m) && r.Success? ==>
              && r.value.userId == Some(AdoptedId(m.userId.value, uuid))
              && r.value.frameId == s.frameId + 1
              && |r.value.sent| > |s.sent| && r.value.sent[|s.sent|] == UI(c.ui)
              && r.value.sent[|r.value.sent| - 1] == Frame(r.value.frameId)
              && FrameIds(r.value.sent) == FrameIds(s.sent) + [r.value.frameId]
              && r.value.agentCalls == s.agentCalls + [if TrialDone(c, s) then Close else ResetEnv, Render]
    ensures Adopts(s, m) && !TrialDone(c, s) ==>
              var id := AdoptedId(m.userId.value, uuid);
              && r.Success? && r.value.episode == s.episode + 1
              && r.value.done == s.done && r.value.play == s.play && r.value.written == s.written
              && r.value.outfile == Open(DataDir + FileName(c, s.(userId := Some(id))))
    ensures Adopts(s, m) && TrialDone(c, s) && r.Success? ==>
              r.value.done && !r.value.play && r.value.episode == s.episode
    ensures r.Success? ==> s.sent <= r.value.sent && r.value.epLog == s.epLog
                           && r.value.humanAction == s.humanAction && r.value.framerate == s.framerate
                           && r.value.episode >= s.episode
                           && (r.value.episode <= c.maxEpisodes || r.value.episode == s.episode)
    ensures r.Success? && !c.TrialMode() ==> r.value.trialLogRefs == s.trialLogRefs
  {
    if Adopts(s, m) then
      var id := AdoptedId(m.userId.value, uuid);
      WelcomeSent(c, s, id);
      WelcomeCalls(c, s, id);
      Welcome(c, s, id)
    else Success(s)
  }

  /** The body of the identification branch for the adopted id `id`. */
  function Welcome(c: Config, s: Session, id: string): (r: Result<Session, Fault>)
    ensures r.Success? <==> !(TrialDone(c, s) && c.TrialMode() && !s.outfile.Open?)
    ensures r.Success? && TrialDone(c, s) && c.TrialMode() ==>
              r.value.trialLogRefs == 0 && r.value.written == s.written + [Dump(s.outfile.path, TrialRecord(TrialLog(s)))]
    ensures r.Success? ==> r.value.userId == Some(id) && r.value.frameId == s.frameId + 1
                           && r.value.epLog == s.epLog
                           && r.value.humanAction == s.humanAction && r.value.framerate == s.framerate
    ensures r.Success? ==> r.value.episode >= s.episode
                           && (r.value.episode <= c.maxEpisodes || r.value.episode == s.episode)
    ensures r.Success? && !c.TrialMode() ==> r.value.trialLogRefs == s.trialLogRefs
    ensures !TrialDone(c, s) ==>
              && r.Success? && r.value.episode == s.episode + 1
              && r.value.done == s.done && r.value.play == s.play && r.value.written == s.written
              && r.value.outfile == Open(DataDir + FileName(c, s.(userId := Some(id))))
    ensures TrialDone(c, s) && r.Success? ==> r.value.done && !r.value.play && r.value.episode == s.episode
  {
    var s1 := SendUI(c, s.(userId := Some(id)));
    var s2 :- Reset(c, s1);
    Success(RenderFrame(s2))
  }

  /** Identification sends the UI first and a frame last, and no other frame. */
  lemma WelcomeSent(c: Config, s: Session, id: string)
    ensures var r := Welcome(c, s, id);
            r.Success? ==>
              && |r.value.sent| > |s.sent| && s.sent <= r.value.sent && r.value.sent[|s.sent|] == UI(c.ui)
              && r.value.sent[|r.value.sent| - 1] == Frame(r.value.frameId)
              && FrameIds(r.value.sent) == FrameIds(s.sent) + [r.value.frameId]
  {
    var s1 := SendUI(c, s.(userId := Some(id)));
    var s2 := Reset(c, s1);
    if s2.Success? {
      var r := RenderFrame(s2.value);
      assert r.sent[..|s1.sent|] == s1.sent;
    }
  }

  /** Identification resets the agent, or closes it exactly when the episodes are spent, and then renders. */
  lemma WelcomeCalls(c: Config, s: Session, id: string)
    ensures var r := Welcome(c, s, id);
            r.Success? ==> r.value.agentCalls == s.agentCalls + [if TrialDone(c, s) then Close else ResetEnv, Render]
  {
    var s1 := SendUI(c, s.(userId := Some(id)));
    var s2 := Reset(c, s1);
    if s2.Success? {
      var call := if TrialDone(c, s1) then Close else ResetEnv;
      assert s2.value.agentCalls == s.agentCalls + [call];
      assert RenderFrame(s2.value).agentCalls == s.agentCalls + [call, Render];
    }
  }

  /** The branch of `handle_message` after identification: at most one field is acted on. */
  function Act(c: Config, s: Session, m: Message): (r: Result<Session, Fault>)
    ensures Present(m.command) ==> r == HandleCommand(c, s, m.command.value)
    ensures !Present(m.command) && Present(m.changeFrameRate) ==>
              r == Success(HandleFramerateChange(c, s, m.changeFrameRate.value))
    ensures !Present(m.command) && !Present(m.changeFrameRate) && Present(m.action) ==>
              r == Success(HandleAction(c, s, m.action.value))
    ensures !Present(m.command) && !Present(m.changeFrameRate) && !Present(m.action) ==> r == Success(s)
    ensures r.Success? ==> r.value.humanAction != s.humanAction ==>
              !Present(m.command) && !Present(m.changeFrameRate) && Present(m.action)
    ensures r.Success? ==> r.value.framerate != s.framerate ==>
              !Present(m.command) && Present(m.changeFrameRate)
    ensures !Present(m.command) ==> r.Success? && r.value.(framerate := s.framerate, humanAction := s.humanAction) == s
    ensures r.Success? ==> r.value.frameId == s.frameId && s.sent <= r.value.sent
                           && FrameIds(r.value.sent) == FrameIds(s.sent) && r.value.epLog == s.epLog
                           && r.value.userId == s.userId && r.value.episode >= s.episode
                           && (r.value.episode <= c.maxEpisodes || r.value.episode == s.episode)
    ensures r.Success? && !c.TrialMode() ==> r.value.trialLogRefs == s.trialLogRefs
    ensures r.Success? && s.humanAction < |c.actionSpace| ==> r.value.humanAction < |c.actionSpace|
    ensures r.Success? ==> s.agentCalls <= r.value.agentCalls && (s.done ==> r.value.done)
  {
    if Present(m.command) then HandleCommand(c, s, m.command.value)
    else if Present(m.changeFrameRate) then Success(HandleFramerateChange(c, s, m.changeFrameRate.value))
    else if Present(m.action) then Success(HandleAction(c, s, m.action.value))
    else Success(s)
  }

  /**
   * `handle_message`: identification first, then the highest-priority
   * present field, then the whole message is appended to `ep_log`.
   */
  function HandleMessage(c: Config, s: Session, m: Message, uuid: string): (r: Result<Session, Fault>)
    ensures !Present(m.command) ==>
              (r.Success? <==> !(Adopts(s, m) && TrialDone(c, s) && c.TrialMode() && !s.outfile.Open?))
    ensures r.Success? ==> r.value.epLog == s.epLog + [Inbound(m)]
    ensures r.Success? && Identified(s) ==> r.value.userId == s.userId
    ensures r.Success? && !Adopts(s, m) ==>
              && r.value.userId == s.userId && r.value.frameId == s.frameId
              && FrameIds(r.value.sent) == FrameIds(s.sent)
    ensures r.Success? && Adopts(s, m) ==>
              && r.value.userId == Some(AdoptedId(m.userId.value, uuid))
              && r.value.frameId == s.frameId + 1
              && FrameIds(r.value.sent) == FrameIds(s.sent) + [r.value.frameId]
              && |r.value.sent| > |s.sent| && r.value.sent[|s.sent|] == UI(c.ui)
    ensures r.Success? && Adopts(s, m) ==>
              && s.agentCalls + [if TrialDone(c, s) then Close else ResetEnv, Render] <= r.value.agentCalls
              && (TrialDone(c, s) ==> r.value.done)
    ensures Adopts(s, m) && !TrialDone(c, s) && !Present(m.command) ==>
              var id := AdoptedId(m.userId.value, uuid);
              && r.Success? && r.value.episode == s.episode + 1
              && r.value.done == s.done && r.value.play == s.play && r.value.written == s.written
              && r.value.outfile == Open(DataDir + FileName(c, s.(userId := Some(id))))
    ensures r.Success? ==> s.sent <= r.value.sent && r.value.episode >= s.episode
                           && (r.value.episode <= c.maxEpisodes || r.value.episode == s.episode)
    ensures r.Success? ==> r.value.humanAction != s.humanAction ==>
              !Present(m.command) && !Present(m.changeFrameRate) && Present(m.action)
    ensures r.Success? ==> r.value.framerate != s.framerate ==>
              !Present(m.command) && Present(m.changeFrameRate)
    ensures r.Success? && !c.TrialMode() ==> r.value.trialLogRefs == s.trialLogRefs
    ensures r.Success? && s.humanAction < |c.actionSpace| ==> r.value.humanAction < |c.actionSpace|
  {
    var s1 :- Identify(c, s, m, uuid);
    var s2 :- Act(c, s1, m);
    var r := UpdateEntry(s2, Inbound(m));
    assert r.sent == s2.sent && s1.sent <= s2.sent;
    assert Adopts(s, m) ==> r.sent[|s.sent|] == s1.sent[|s.sent|];
    Success(r)
  }

  /**
   * The highest-priority present field is the one handled: after
   * identification, the outcome is that field's handler applied to the
   * identified session, followed by logging the message.
   */
  lemma WinningFieldHandled(c: Config, s: Session, m: Message, uuid: string)
    ensures var i, r := Identify(c, s, m, uuid), HandleMessage(c, s, m, uuid);
            var log := s.epLog + [Inbound(m)];
            && (i.Failure? ==> r == Failure(i.error))
            && (i.Success? && Present(m.command) ==>
                  var h := HandleCommand(c, i.value, m.command.value);
                  && (h.Failure? ==> r == Failure(h.error))
                  && (h.Success? ==> r == Success(h.value.(epLog := log))))
            && (i.Success? && !Present(m.command) && Present(m.changeFrameRate) ==>
                  r == Success(HandleFramerateChange(c, i.value, m.changeFrameRate.value).(epLog := log)))
            && (i.Success? && !Present(m.command) && !Present(m.changeFrameRate) && Present(m.action) ==>
                  r == Success(HandleAction(c, i.value, m.action.value).(epLog := log)))
            && (i.Success? && !Present(m.command) && !Present(m.changeFrameRate) && !Present(m.action) ==>
                  r == Success(i.value.(epLog := log)))
  {
  }

  /** A present command wins: the frame-rate and action fields of the same message are ignored. */
  lemma CommandTakesPriority(c: Config, s: Session, m: Message, uuid: string,
                             rate: Option<string>, action: Option<string>)
    requires Present(m.command)
    ensures var m' := m.(changeFrameRate := rate, action := action);
            var r, r' := HandleMessage(c, s, m, uuid), HandleMessage(c, s, m', uuid);
            && (r.Success? <==> r'.Success?)
            && (r.Success? ==> r'.value == r.value.(epLog := s.epLog + [Inbound(m')]))
  {
    var m' := m.(changeFrameRate := rate, action := action);
    var i := Identify(c, s, m, uuid);
    assert Identify(c, s, m', uuid) == i;
    if i.Success? {
      assert Act(c, i.value, m') == Act(c, i.value, m);
    }
  }

  /**
   * Without a command, a present frame-rate change wins: an absent or empty
   * command and the action field of the same message are ignored.
   */
  lemma FrameRateTakesPriority(c: Config, s: Session, m: Message, uuid: string,
                               command: Option<string>, action: Option<string>)
    requires !Present(m.command) && !Present(command) && Present(m.changeFrameRate)
    ensures var m' := m.(command := command, action := action);
            var r, r' := HandleMessage(c, s, m, uuid), HandleMessage(c, s, m', uuid);
            && (r.Success? <==> r'.Success?)
            && (r.Success? ==> r'.value == r.value.(epLog := s.epLog + [Inbound(m')]))
  {
    var m' := m.(command := command, action := action);
    var i := Identify(c, s, m, uuid);
    assert Identify(c, s, m', uuid) == i;
    if i.Success? {
      assert Act(c, i.value, m') == Act(c, i.value, m);
    }
  }

  /** A message that cannot be parsed only adds its error record to the log; it never fails. */
  lemma ParseErrorOnlyLogged(c: Config, s: Session, uuid: string)
    ensures HandleMessage(c, s, ErrorRecord(s.frameId), uuid)
            == Success(s.(epLog := s.epLog + [Inbound(ErrorRecord(s.frameId))]))
  {
  }
}

=== FILE: lifecycle.dfy ===
/**
 * Episode and trial lifecycle of `Trial`: rendering a frame, opening the
 * telemetry file, reset, the trial-done check, end, and the step/telemetry
 * routing of `take_step`, `save_entry` and `save_record`.
 */
module Lifecycle {
  import opened Wrappers
  import opened Text
  import opened Settings
  import opened Protocol
  import opened Sessions

  /** The directory telemetry files are created in. */
  const DataDir: string := "Trials/"

  /** `f'{self.userId}'`: Python formats None as the text "None". */
  function UserText(userId: Option<string>): string {
    match userId
    case None => "None"
    case Some(u) => u
  }

  /** The file name `create_file` chooses: one per trial, or one per episode and user. */
  function FileName(c: Config, s: Session): string {
    if c.TrialMode() then "trial_" + UserText(s.userId)
    else "episode_" + NatToString(s.episode) + "_user_" + UserText(s.userId)
  }

  /** In per-episode mode, two different episode numbers never share a file name. */
  lemma EpisodeFileNamesDistinct(c: Config, s: Session, t: Session)
    requires !c.TrialMode() && s.userId == t.userId && s.episode != t.episode
    ensures FileName(c, s) != FileName(c, t)
  {
    var a, b := NatToString(s.episode), NatToString(t.episode);
    var u := "_user_" + UserText(s.userId);
    var x, y := "episode_" + a + u, "episode_" + b + u;
    assert FileName(c, s) == x && FileName(c, t) == y;
    assert forall k :: 0 <= k < |a| ==> x[8 + k] == a[k];
    assert forall k :: 0 <= k < |b| ==> y[8 + k] == b[k];
    if |a| == |b| {
      assert DigitsValue(a) != DigitsValue(b);
      assert a != b;
      assert !(forall k :: 0 <= k < |a| ==> a[k] == b[k]);
      var k :| 0 <= k < |a| && a[k] != b[k];
      assert x[8 + k] != y[8 + k];
      assert x != y;
    } else if |a| < |b| {
      assert x[8 + |a|] == '_' && IsDigit(y[8 + |a|]);
    } else {
      assert y[8 + |b|] == '_' && IsDigit(x[8 + |b|]);
    }
  }

  /** In whole-trial mode the file name does not depend on the episode. */
  lemma TrialFileNameFixed(c: Config, s: Session, t: Session)
    requires c.TrialMode() && s.userId == t.userId
    ensures FileName(c, s) == FileName(c, t)
  {
  }

  /** `create_file`: opens `Trials/<name>` for appending and remembers its name and path. */
  function CreateFile(c: Config, s: Session): (r: Session)
    ensures r.outfile == Open(DataDir + FileName(c, s))
    ensures r.path == Some(r.outfile.path) && r.filename == Some(FileName(c, s))
    ensures r == s.(outfile := r.outfile, filename := r.filename, path := r.path)
  {
    var name := FileName(c, s);
    s.(outfile := Open(DataDir + name), filename := Some(name), path := Some(DataDir + name))
  }

  /** `outfile.close()`: closing an already closed file changes nothing. */
  function CloseFile(f: FileState): (g: FileState)
    requires !f.NoFile?
    ensures g.Closed? && g.path == f.path
  {
    Closed(f.path)
  }

  /** `cPickle.dump(record, self.outfile)`. */
  function Write(s: Session, record: Record): (r: Result<Session, Fault>)
    ensures r.Success? <==> s.outfile.Open?
    ensures s.outfile.NoFile? ==> r == Failure(WriteWithoutFile)
    ensures s.outfile.Closed? ==> r == Failure(WriteToClosedFile)
    ensures r.Success? ==> r.value == s.(written := s.written + [Dump(s.outfile.path, record)])
  {
    match s.outfile
    case NoFile => Failure(WriteWithoutFile)
    case Closed(_) => Failure(WriteToClosedFile)
    case Open(p) => Success(s.(written := s.written + [Dump(p, record)]))
  }

  /** `get_render` followed by `send_render`: the frame counter moves by one and the frame carries the new id. */
  function RenderFrame(s: Session): (r: Session)
    ensures r.frameId == s.frameId + 1
    ensures r.sent == s.sent + [Frame(r.frameId)]
    ensures FrameIds(r.sent) == FrameIds(s.sent) + [r.frameId]
    ensures r.agentCalls == s.agentCalls + [Render]
    ensures r == s.(frameId := r.frameId, sent := r.sent, agentCalls := r.agentCalls)
  {
    var id := s.frameId + 1;
    assert (s.sent + [Frame(id)])[..|s.sent|] == s.sent;
    s.(frameId := id, sent := s.sent + [Frame(id)], agentCalls := s.agentCalls + [Render])
  }

  /** `pipe.send` of a message that is not a frame: the frame ids sent so far stay the same. */
  function Send(s: Session, m: OutMsg): (r: Session)
    requires !m.Frame?
    ensures r.sent == s.sent + [m] && s.sent <= r.sent
    ensures FrameIds(r.sent) == FrameIds(s.sent)
    ensures r == s.(sent := r.sent)
  {
    assert (s.sent + [m])[..|s.sent|] == s.sent;
    s.(sent := s.sent + [m])
  }

  /** `send_ui`: the configured control list goes down the pipe. */
  function SendUI(c: Config, s: Session): (r: Session)
    ensures r.sent == s.sent + [UI(c.ui)]
    ensures FrameIds(r.sent) == FrameIds(s.sent)
    ensures r == s.(sent := r.sent)
  {
    Send(s, UI(c.ui))
  }

  /** The parts of a session that only rendering, the message handlers and `take_step` change. */
  predicate KeepsInputs(s: Session, r: Session) {
    && r.frameId == s.frameId
    && s.sent <= r.sent
    && FrameIds(r.sent) == FrameIds(s.sent)
    && r.epLog == s.epLog
    && r.userId == s.userId
    && r.humanAction == s.humanAction
    && r.framerate == s.framerate
    && r.trialId == s.trialId
  }

  /** `check_trial_done`: the trial is over once `episode` reaches `maxEpisodes`. */
  predicate TrialDone(c: Config, s: Session) {
    s.episode >= c.maxEpisodes
  }

  /** The upload hand-off `end` sends (it has no bucket key). */
  function EndUpload(c: Config, s: Session): OutMsg {
    Upload(c.projectId, s.userId, s.filename, s.path, None)
  }

  /** The upload hand-off `reset` sends when uploads are enabled (it names the bucket). */
  function ResetUpload(c: Config, s: Session): OutMsg {
    Upload(c.projectId, s.userId, s.filename, s.path, Some(c.bucket))
  }

  /** `save_record`: pickles the whole trial log and empties it. */
  function SaveRecord(s: Session): (r: Result<Session, Fault>)
    ensures r.Success? <==> s.outfile.Open?
    ensures r.Success? ==> r.value.written == s.written + [Dump(s.outfile.path, TrialRecord(TrialLog(s)))]
    ensures r.Success? ==> TrialLog(r.value) == [] && r.value == s.(written := r.value.written, trialLogRefs := 0)
  {
    var s1 :- Write(s, TrialRecord(TrialLog(s)));
    Success(s1.(trialLogRefs := 0))
  }

  /**
   * `end`: tells the client the trial is done, closes the agent, flushes the
   * trial log in whole-trial mode, closes and hands off any file, and stops.
   * It fails exactly when the trial log must be flushed but no file is open.
   */
  function End(c: Config, s: Session): (r: Result<Session, Fault>)
    ensures r.Success? <==> !c.TrialMode() || s.outfile.Open?
    ensures r.Success? ==> r.value.done && !r.value.play
    ensures r.Success? ==> KeepsInputs(s, r.value) && r.value.episode == s.episode
    ensures r.Success? ==> r.value.agentCalls == s.agentCalls + [Close]
    ensures r.Success? ==> r.value.sent == s.sent + [Done] + (if s.outfile.NoFile? then [] else [EndUpload(c, s)])
    ensures r.Success? ==> !r.value.outfile.Open? && (r.value.outfile.NoFile? <==> s.outfile.NoFile?)
    ensures r.Success? && c.TrialMode() ==>
              r.value.written == s.written + [Dump(s.outfile.path, TrialRecord(TrialLog(s)))]
              && r.value.trialLogRefs == 0
    ensures r.Success? && !c.TrialMode() ==> r.value.written == s.written && r.value.trialLogRefs == s.trialLogRefs
  {
    var s1 := Send(s, Done).(agentCalls := s.agentCalls + [Close]);
    var s2 :- if c.TrialMode() then SaveRecord(s1) else Success(s1);
    assert EndUpload(c, s2) == EndUpload(c, s);
    var s3 := if s2.outfile.NoFile? then s2
              else Send(s2.(outfile := CloseFile(s2.outfile)), EndUpload(c, s2));
    Success(s3.(play := false, done := true))
  }

  /**
   * `reset`: ends the trial once `episode >= maxEpisodes`; otherwise resets
   * the agent, closes (and optionally hands off) the previous file, opens the
   * next one and counts one more episode. `frameId` is never reset.
   */
  function Reset(c: Config, s: Session): (r: Result<Session, Fault>)
    ensures TrialDone(c, s) ==> r == End(c, s)
    ensures !TrialDone(c, s) ==> r.Success?
    ensures !TrialDone(c, s) ==>
              && r.value.episode == s.episode + 1
              && r.value.outfile == Open(DataDir + FileName(c, s))
              && r.value.done == s.done && r.value.play == s.play
              && r.value.agentCalls == s.agentCalls + [ResetEnv]
              && r.value.sent == s.sent + (if !s.outfile.NoFile? && c.s3upload then [ResetUpload(c, s)] else [])
              && r.value.written == s.written && r.value.trialLogRefs == s.trialLogRefs
              && r.value.filename == Some(FileName(c, s)) && r.value.path == Some(DataDir + FileName(c, s))
    ensures r.Success? ==> KeepsInputs(s, r.value) && r.value.episode >= s.episode
    ensures r.Success? ==> r.value.episode <= c.maxEpisodes || r.value.episode == s.episode
    ensures r.Success? && !c.TrialMode() ==> r.value.trialLogRefs == s.trialLogRefs
  {
    if TrialDone(c, s) then End(c, s)
    else
      var s1 := s.(agentCalls := s.agentCalls + [ResetEnv]);
      var closed := if s1.outfile.NoFile? then s1 else s1.(outfile := CloseFile(s1.outfile));
      var s2 := if !s1.outfile.NoFile? && c.s3upload then Send(closed, ResetUpload(c, s)) else closed;
      var s3 := CreateFile(c, s2);
      Success(s3.(episode := s3.episode + 1))
  }

  /**
   * `save_entry`: in whole-trial mode `ep_log` is appended to `trial_log`
   * (and kept); otherwise it is pickled to the episode file and emptied.
   */
  function SaveEntry(c: Config, s: Session): (r: Result<Session, Fault>)
    ensures c.TrialMode() ==> r.Success? && TrialLog(r.value) == TrialLog(s) + [s.epLog]
                              && r.value.epLog == s.epLog && r.value.written == s.written
    ensures !c.TrialMode() ==> (r.Success? <==> s.outfile.Open?)
    ensures !c.TrialMode() && r.Success? ==>
              r.value.epLog == [] && r.value.written == s.written + [Dump(s.outfile.path, EpisodeRecord(s.epLog))]
              && r.value.trialLogRefs == s.trialLogRefs
    ensures r.Success? ==> r == Success(r.value.(epLog := r.value.epLog, written := r.value.written,
                                                 trialLogRefs := r.value.trialLogRefs))
    ensures r.Success? ==> r.value.(epLog := s.epLog, written := s.written, trialLogRefs := s.trialLogRefs) == s
  {
    if c.TrialMode() then
      var r := s.(trialLogRefs := s.trialLogRefs + 1);
      assert TrialLog(r) == TrialLog(s) + [s.epLog];
      Success(r)
    else
      var s1 :- Write(s, EpisodeRecord(s.epLog));
      Success(s1.(epLog := []))
  }

  /**
   * The end of an episode in `take_step`, once the finishing step is logged:
   * `save_entry` then `reset`, which either starts the next episode or ends
   * the trial.
   */
  function EndEpisode(c: Config, s: Session): (r: Result<Session, Fault>)
    ensures r.Success? ==> r.value.frameId == s.frameId && FrameIds(r.value.sent) == FrameIds(s.sent)
                           && s.sent <= r.value.sent && r.value.userId == s.userId
                           && r.value.humanAction == s.humanAction && r.value.framerate == s.framerate
    ensures r.Success? ==> r.value.agentCalls == s.agentCalls + [if TrialDone(c, s) then Close else ResetEnv]
    ensures r.Success? ==> (TrialDone(c, s) <==> r.value.done && !r.value.play) || s.done
    ensures r.Success? ==> r.value.episode == s.episode + 1 || r.value.done
    ensures r.Success? ==> r.value.episode >= s.episode
                           && (r.value.episode <= c.maxEpisodes || r.value.episode == s.episode)
    ensures !c.TrialMode() ==> (r.Success? <==> s.outfile.Open?)
    ensures c.TrialMode() && TrialDone(c, s) ==> (r.Success? <==> s.outfile.Open?)
    ensures r.Success? && !c.TrialMode() ==>
              && r.value.epLog == [] && r.value.trialLogRefs == s.trialLogRefs
              && r.value.written == s.written + [Dump(s.outfile.path, EpisodeRecord(s.epLog))]
    ensures r.Success? && c.TrialMode() ==> r.value.epLog == s.epLog
    ensures !TrialDone(c, s) && r.Success? ==>
              && r.value.episode == s.episode + 1 && r.value.done == s.done && r.value.play == s.play
              && r.value.outfile == Open(DataDir + FileName(c, s))
              && r.value.sent == s.sent + (if !s.outfile.NoFile? && c.s3upload then [ResetUpload(c, s)] else [])
    ensures c.TrialMode() && !TrialDone(c, s) ==>
              r.Success? && r.value.trialLogRefs == s.trialLogRefs + 1 && r.value.written == s.written
    ensures r.Success? && c.TrialMode() && TrialDone(c, s) ==>
              && r.value.trialLogRefs == 0 && s.outfile.Open?
              && r.value.written == s.written + [Dump(s.outfile.path, TrialRecord(Copies(s.trialLogRefs + 1, s.epLog)))]
  {
    var s2 :- SaveEntry(c, s);
    assert s2.episode == s.episode && s2.agentCalls == s.agentCalls && s2.outfile == s.outfile;
    Reset(c, s2)
  }

  /**
   * `take_step`: steps the agent with the current human action and logs the
   * result; when the episode is over, saves the episode log and resets.
   */
  function TakeStep(c: Config, s: Session, result: StepResult): (r: Result<Session, Fault>)
    ensures !result.done ==>
              r == Success(s.(agentCalls := s.agentCalls + [Step(s.humanAction)], epLog := s.epLog + [Stepped(result)]))
    ensures !result.done ==> r.Success? && r.value.epLog == s.epLog + [Stepped(result)]
                             && r.value.episode == s.episode && r.value.done == s.done
                             && r.value.play == s.play
                             && r.value.agentCalls == s.agentCalls + [Step(s.humanAction)]
    ensures r.Success? ==> r.value.frameId == s.frameId && FrameIds(r.value.sent) == FrameIds(s.sent)
    ensures r.Success? ==> s.sent <= r.value.sent && r.value.userId == s.userId
                           && r.value.humanAction == s.humanAction && r.value.framerate == s.framerate
    ensures r.Success? ==> s.agentCalls + [Step(s.humanAction)] <= r.value.agentCalls
    ensures r.Success? && result.done ==> r.value.episode == s.episode + 1 || r.value.done
    ensures r.Success? ==> r.value.episode >= s.episode
    ensures r.Success? ==> r.value.episode <= c.maxEpisodes || r.value.episode == s.episode
    ensures r.Success? && !c.TrialMode() ==> r.value.trialLogRefs == s.trialLogRefs
    ensures r.Success? && result.done && !c.TrialMode() ==>
              && s.outfile.Open? && r.value.epLog == []
              && r.value.written == s.written + [Dump(s.outfile.path, EpisodeRecord(s.epLog + [Stepped(result)]))]
    ensures r.Success? && c.TrialMode() ==> r.value.epLog == s.epLog + [Stepped(result)]
    ensures result.done && !c.TrialMode() ==> (r.Success? <==> s.outfile.Open?)
    ensures result.done && c.TrialMode() && TrialDone(c, s) ==> (r.Success? <==> s.outfile.Open?)
    ensures r.Success? && result.done ==>
              r.value.agentCalls == s.agentCalls + [Step(s.humanAction)] + [if TrialDone(c, s) then Close else ResetEnv]
    ensures r.Success? && result.done ==>
              (TrialDone(c, s) <==> r.value.done && !r.value.play) || s.done
    ensures r.Success? && result.done && !TrialDone(c, s) ==>
              && r.value.episode == s.episode + 1 && r.value.done == s.done && r.value.play == s.play
              && r.value.outfile == Open(DataDir + FileName(c, s))
              && r.value.sent == s.sent + (if !s.outfile.NoFile? && c.s3upload then [ResetUpload(c, s)] else [])
    ensures result.done && c.TrialMode() && !TrialDone(c, s) ==>
              r.Success? && r.value.trialLogRefs == s.trialLogRefs + 1 && r.value.written == s.written
    ensures r.Success? && result.done && c.TrialMode() && TrialDone(c, s) ==>
              && r.value.trialLogRefs == 0 && s.outfile.Open?
              && r.value.written == s.written + [Dump(s.outfile.path,
                                                      TrialRecord(Copies(s.trialLogRefs + 1, s.epLog + [Stepped(result)])))]
  {
    var s1 := s.(agentCalls := s.agentCalls + [Step(s.humanAction)], epLog := s.epLog + [Stepped(result)]);
    if result.done then EndEpisode(c, s1) else Success(s1)
  }
}

=== FILE: loop.dfy ===
/**
 * The main loop of `Trial.run`: each iteration polls the pipe, dispatches a
 * message if one arrived, and while playing renders one frame and takes one
 * step. The pacing sleep is not modelled.
 */
module Loop {
  import opened Wrappers
  import opened Text
  import opened Settings
  import opened Protocol
  import opened Sessions
  import opened Lifecycle
  import opened Dispatch

  /**
   * What the collaborators contribute to one iteration: the pipe's payload,
   * the uuid `shortuuid` would generate, and the result the agent's `step`
   * returns if a step is taken.
   */
  datatype Tick = Tick(arrival: Arrival, uuid: string, result: StepResult)

  /** `check_message`: no payload gives nothing; an unparsable one gives the error record. */
  function CheckMessage(s: Session, a: Arrival): (m: Option<Message>)
    ensures m.None? <==> a.NoPayload?
    ensures a.Unparsable? ==> m == Some(ErrorRecord(s.frameId))
    ensures a.Parsed? ==> m == Some(a.msg)
  {
    match a
    case NoPayload => None
    case Unparsable => Some(ErrorRecord(s.frameId))
    case Parsed(msg) => Some(msg)
  }

  /** An unparsable payload always reaches dispatch: its error record is never an empty dictionary. */
  lemma ErrorRecordIsDispatched(s: Session)
    ensures CheckMessage(s, Unparsable).Some? && !IsEmpty(CheckMessage(s, Unparsable).value)
  {
    assert "error" in ErrorRecord(s.frameId).others;
  }

  /**
   * The body of the `while not self.done` loop. `message` is handled only
   * when it is a non-empty dictionary; a frame is rendered and a step taken
   * only when `play` is set after dispatch.
   */
  function Iterate(c: Config, s: Session, t: Tick): (r: Result<Session, Fault>)
    requires !s.done
    ensures r.Success? ==> r.value.frameId >= s.frameId && s.sent <= r.value.sent
                           && r.value.episode >= s.episode
    ensures r.Success? && Identified(s) ==> r.value.userId == s.userId
  {
    var s1 :- Receive(c, s, t);
    Advance(c, s1, t.result)
  }

  /** The first half of an iteration: a non-empty message, if one arrived, is dispatched. */
  function Receive(c: Config, s: Session, t: Tick): (r: Result<Session, Fault>)
    ensures t.arrival.NoPayload? || (t.arrival.Parsed? && IsEmpty(t.arrival.msg)) ==> r == Success(s)
    ensures t.arrival.Unparsable? ==> r == Success(s.(epLog := s.epLog + [Inbound(ErrorRecord(s.frameId))]))
    ensures r.Success? ==> r.value.frameId >= s.frameId && s.sent <= r.value.sent
                           && r.value.episode >= s.episode
    ensures r.Success? && Identified(s) ==> r.value.userId == s.userId
  {
    ParseErrorOnlyLogged(c, s, t.uuid);
    var message := CheckMessage(s, t.arrival);
    if message.Some? && !IsEmpty(message.value) then HandleMessage(c, s, message.value, t.uuid)
    else Success(s)
  }

  /** The second half of an iteration: while playing, one frame is rendered and one step taken. */
  function Advance(c: Config, s: Session, result: StepResult): (r: Result<Session, Fault>)
    ensures !s.play ==> r == Success(s)
    ensures s.play && r.Success? ==>
              && r.value.frameId == s.frameId + 1
              && s.sent + [Frame(r.value.frameId)] <= r.value.sent
              && s.agentCalls + [Render, Step(s.humanAction)] <= r.value.agentCalls
    ensures s.play && !result.done ==>
              r.Success? && r.value.epLog == s.epLog + [Stepped(result)] && r.value.episode == s.episode
    ensures r.Success? ==> r.value.frameId >= s.frameId && s.sent <= r.value.sent
                           && r.value.episode >= s.episode && r.value.userId == s.userId
  {
    if s.play then TakeStep(c, RenderFrame(s), result) else Success(s)
  }

  /**
   * While paused, an iteration without a payload changes nothing, and one
   * with an unparsable payload only logs its error record.
   */
  lemma PausedIteration(c: Config, s: Session, t: Tick)
    requires !s.done && !s.play && !t.arrival.Parsed?
    ensures t.arrival.NoPayload? ==> Iterate(c, s, t) == Success(s)
    ensures t.arrival.Unparsable? ==>
              Iterate(c, s, t) == Success(s.(epLog := s.epLog + [Inbound(ErrorRecord(s.frameId))]))
  {
    if t.arrival.Unparsable? {
      ErrorRecordIsDispatched(s);
      ParseErrorOnlyLogged(c, s, t.uuid);
    }
  }

  /** An iteration that receives a non-empty message: dispatch, then render and step if playing. */
  lemma IterateDispatches(c: Config, s: Session, t: Tick)
    requires !s.done && t.arrival.Parsed? && !IsEmpty(t.arrival.msg)
    ensures var h := HandleMessage(c, s, t.arrival.msg, t.uuid);
            && (h.Failure? ==> Iterate(c, s, t) == Failure(h.error))
            && (h.Success? && h.value.play ==> Iterate(c, s, t) == TakeStep(c, RenderFrame(h.value), t.result))
            && (h.Success? && !h.value.play ==> Iterate(c, s, t) == h)
  {
  }

  /** Dispatching a message keeps every reachable-state fact. */
  lemma HandleMessageKeepsValid(c: Config, s: Session, m: Message, uuid: string)
    requires Valid(c, s)
    ensures HandleMessage(c, s, m, uuid).Success? ==> Valid(c, HandleMessage(c, s, m, uuid).value)
  {
    var r := HandleMessage(c, s, m, uuid);
    if r.Success? && Adopts(s, m) {
      assert Upto(r.value.frameId) == Upto(s.frameId) + [r.value.frameId];
    }
  }

  /** Rendering one frame and stepping keeps every reachable-state fact. */
  lemma PlayKeepsValid(c: Config, s: Session, result: StepResult)
    requires Valid(c, s)
    ensures TakeStep(c, RenderFrame(s), result).Success? ==>
              Valid(c, TakeStep(c, RenderFrame(s), result).value)
  {
    var s2 := RenderFrame(s);
    assert Upto(s2.frameId) == Upto(s.frameId) + [s2.frameId];
    assert Valid(c, s2);
  }

  /** One iteration keeps every reachable-state fact. */
  lemma IterateKeepsValid(c: Config, s: Session, t: Tick)
    requires !s.done && Valid(c, s)
    ensures Iterate(c, s, t).Success? ==> Valid(c, Iterate(c, s, t).value)
  {
    var message := CheckMessage(s, t.arrival);
    if message.Some? && !IsEmpty(message.value) {
      HandleMessageKeepsValid(c, s, message.value, t.uuid);
    }
    var h := if message.Some? && !IsEmpty(message.value)
             then HandleMessage(c, s, message.value, t.uuid)
             else Success(s);
    if h.Success? {
      PlayKeepsValid(c, h.value, t.result);
    }
  }

  /**
   * `run`: iterates until `done` is set or the ticks run out. Once `done`
   * holds nothing further happens.
   */
  function Run(c: Config, s: Session, ticks: seq<Tick>): (r: Result<Session, Fault>)
    ensures s.done ==> r == Success(s)
    ensures r.Success? ==> r.value.frameId >= s.frameId && s.sent <= r.value.sent
                           && r.value.episode >= s.episode
    ensures r.Success? && Identified(s) ==> r.value.userId == s.userId
    decreases |ticks|
  {
    if s.done || |ticks| == 0 then Success(s)
    else
      var s1 :- Iterate(c, s, ticks[0]);
      Run(c, s1, ticks[1..])
  }

  /** Every state the loop reaches from a valid one is valid. */
  lemma {:induction false} RunKeepsValid(c: Config, s: Session, ticks: seq<Tick>)
    requires Valid(c, s)
    ensures Run(c, s, ticks).Success? ==> Valid(c, Run(c, s, ticks).value)
    decreases |ticks|
  {
    if !s.done && |ticks| > 0 {
      IterateKeepsValid(c, s, ticks[0]);
      var s1 := Iterate(c, s, ticks[0]);
      if s1.Success? {
        RunKeepsValid(c, s1.value, ticks[1..]);
      }
    }
  }

  /**
   * From a fresh trial: the episode counter never exceeds `max(maxEpisodes, 0)`,
   * the frames sent are numbered 1, 2, ... up to `frameId`, and the human
   * action is a valid index into the action space.
   */
  lemma TrialBounds(c: Config, trialId: string, ticks: seq<Tick>)
    requires NoopAction in c.actionSpace
    ensures var r := Run(c, Init(c, trialId), ticks);
            r.Success? ==>
              && (r.value.episode <= c.maxEpisodes || r.value.episode == 0)
              && FrameIds(r.value.sent) == Upto(r.value.frameId)
              && r.value.humanAction < |c.actionSpace|
  {
    RunKeepsValid(c, Init(c, trialId), ticks);
  }
}

=== FILE: protocol.dfy ===
/**
 * The values that cross the controller's boundary: inbound messages from the
 * websocket pipe, outbound pipe messages, calls into the agent/environment,
 * log entries and the records pickled to the telemetry file.
 */
module Protocol {
  import opened Wrappers

  /** A JSON value the controller never inspects beyond its kind. */
  datatype Json = JString(text: string) | JNumber(number: int) | JOther

  /**
   * A parsed inbound message. The four keys the controller reads are
   * optional strings (a missing key is None); every other key is kept
   * verbatim in `others` so that the log records the whole message.
   */
  datatype Message = Message(
    userId: Option<string>,
    command: Option<string>,
    changeFrameRate: Option<string>,
    action: Option<string>,
    others: map<string, Json>)

  /** The text of the error record synthesised for a payload that is not JSON. */
  const ParseErrorText: string := "unable to parse message"

  /** `{'error': 'unable to parse message', 'frameId': frameId}`. */
  function ErrorRecord(frameId: nat): (m: Message)
    ensures m.userId.None? && m.command.None? && m.changeFrameRate.None? && m.action.None?
    ensures m.others == map["error" := JString(ParseErrorText), "frameId" := JNumber(frameId)]
  {
    Message(None, None, None, None,
            map["error" := JString(ParseErrorText), "frameId" := JNumber(frameId)])
  }

  /** Python truthiness of a parsed dictionary: `{}` is falsy. */
  predicate IsEmpty(m: Message) {
    m.userId.None? && m.command.None? && m.changeFrameRate.None? && m.action.None?
    && |m.others| == 0
  }

  /** `key in message and message[key]`: the key is present and its string is non-empty. */
  predicate Present(field: Option<string>) {
    field.Some? && field.value != ""
  }

  /** What `pipe.poll()`/`pipe.recv()`/`json.loads` deliver in one loop iteration. */
  datatype Arrival =
    | NoPayload            // poll() was false
    | Unparsable           // a payload arrived that json.loads rejects
    | Parsed(msg: Message) // a payload that decodes to a dictionary

  /** What the agent's `step` returns: a `done` flag and opaque observation fields. */
  datatype StepResult = StepResult(done: bool, fields: map<string, Json>)

  /** One element of `ep_log`: an inbound message or a step result, in arrival order. */
  datatype Entry = Inbound(msg: Message) | Stepped(result: StepResult)

  /** A message written to the pipe. `Frame` stands for `{'frame': ..., 'frameId': id}`. */
  datatype OutMsg =
    | Done
    | Upload(projectId: Option<string>, userId: Option<string>, file: Option<string>,
             path: Option<string>, bucket: Option<Option<string>>)
    | UI(controls: seq<string>)
    | Frame(id: nat)

  /** A call made into the agent/environment. */
  datatype AgentCall = Start(game: Option<string>) | ResetEnv | Step(action: nat) | Render | Close

  /** An object pickled into the telemetry file. */
  datatype Record = EpisodeRecord(entries: seq<Entry>) | TrialRecord(episodes: seq<seq<Entry>>)

  /** One `cPickle.dump` into the file opened at `path`. */
  datatype Dump = Dump(path: string, record: Record)

  /** The ids of the frames among the sent messages, in sending order. */
  function FrameIds(sent: seq<OutMsg>): (ids: seq<nat>)
    ensures |ids| <= |sent|
  {
    if |sent| == 0 then []
    else FrameIds(sent[..|sent| - 1]) + (if sent[|sent| - 1].Frame? then [sent[|sent| - 1].id] else [])
  }

  /** Frame ids of a concatenation are the concatenation of the frame ids. */
  lemma {:induction false} FrameIdsAppend(a: seq<OutMsg>, b: seq<OutMsg>)
    ensures FrameIds(a + b) == FrameIds(a) + FrameIds(b)
    decreases |b|
  {
    if |b| > 0 {
      var b' := b[..|b| - 1];
      assert (a + b)[..|a + b| - 1] == a + b';
      FrameIdsAppend(a, b');
    } else {
      assert a + b == a;
    }
  }

  /** `1, 2, ..., n`: the frame ids a trial that rendered `n` frames has sent. */
  function Upto(n: nat): (ids: seq<nat>)
    ensures |ids| == n
    ensures forall i :: 0 <= i < n ==> ids[i] == i + 1
  {
    if n == 0 then [] else Upto(n - 1) + [n]
  }
}

=== FILE: scenarios.dfy ===
/**
 * Concrete runs of the controller: the identify/start/act/finish script of a
 * one-episode trial, and a message that resumes play after the trial ended.
 * The words the client types are parameters constrained by what they
 * normalise to, so each run covers every spelling the handlers accept.
 */
module Scenarios {
  import opened Wrappers
  import opened Text
  import opened Settings
  import opened Protocol
  import opened Sessions
  import opened Lifecycle
  import opened Dispatch
  import opened Loop

  /** A message carrying only the given keys. */
  function Say(userId: Option<string>, command: Option<string>, action: Option<string>): Message {
    Message(userId, command, None, action, map[])
  }

  function Identification(user: string): Message { Say(Some(user), None, None) }
  function StartCommand(start: string): Message { Say(None, Some(start), None) }
  function Choice(pick: string): Message { Say(None, None, Some(pick)) }

  /**
   * A one-episode, per-episode-file configuration without uploads whose
   * action space starts with `noop` followed by a different action, and a
   * client that types `start` as `start` and names that second action as the
   * non-empty `pick`.
   */
  predicate Script(c: Config, user: string, start: string, pick: string) {
    && |c.actionSpace| >= 2 && c.actionSpace[0] == NoopAction && c.actionSpace[1] != NoopAction
    && c.maxEpisodes == 1 && !c.TrialMode() && !c.s3upload
    && user != "" && Normalize(start) == "start" && pick != "" && Normalize(pick) == c.actionSpace[1]
  }

  /** The name of the first episode's file for `user`. */
  function FirstFile(user: string): string {
    "episode_0_user_" + user
  }

  /** Naming the second action selects code 1. */
  lemma PickSelectsOne(c: Config, s: Session, pick: string)
    requires |c.actionSpace| >= 2 && c.actionSpace[0] != c.actionSpace[1]
    requires Normalize(pick) == c.actionSpace[1]
    ensures HandleAction(c, s, pick) == s.(humanAction := 1)
  {
    assert c.actionSpace[1] in c.actionSpace;
  }

  /** A fresh session after `user` is identified and the first episode's file is opened. */
  function Greeted(c: Config, s0: Session, user: string): Session {
    s0.(userId := Some(user), episode := 1, frameId := 1,
        sent := [UI(c.ui), Frame(1)], agentCalls := s0.agentCalls + [ResetEnv, Render],
        outfile := Open(DataDir + FirstFile(user)),
        filename := Some(FirstFile(user)), path := Some(DataDir + FirstFile(user)))
  }

  /** Identifying `user` in a fresh trial with an episode to spare opens the first episode's file. */
  lemma WelcomeFresh(c: Config, s0: Session, user: string)
    requires NoopAction in c.actionSpace && c.maxEpisodes >= 1 && !c.TrialMode()
    requires s0 == Init(c, s0.trialId)
    ensures Welcome(c, s0, user) == Success(Greeted(c, s0, user))
  {
    var s1 := SendUI(c, s0.(userId := Some(user)));
    assert NatToString(0) == "0";
    assert FileName(c, s1) == FirstFile(user);
    var s2 := Reset(c, s1).value;
    assert s2 == s1.(episode := 1, agentCalls := s1.agentCalls + [ResetEnv],
                     outfile := Open(DataDir + FirstFile(user)),
                     filename := Some(FirstFile(user)), path := Some(DataDir + FirstFile(user)));
    var r := RenderFrame(s2);
    assert r.sent == [UI(c.ui), Frame(1)];
    assert r.agentCalls == s0.agentCalls + [ResetEnv, Render];
  }

  /** First message: the user is identified, the first episode's file is opened and frame 1 is sent. */
  lemma IdentifyStep(c: Config, s0: Session, user: string, uuid: string, result: StepResult)
    requires NoopAction in c.actionSpace && c.maxEpisodes >= 1 && !c.TrialMode()
    requires user != "" && s0 == Init(c, s0.trialId)
    ensures Iterate(c, s0, Tick(Parsed(Identification(user)), uuid, result))
            == Success(Greeted(c, s0, user).(epLog := [Inbound(Identification(user))]))
  {
    var m := Identification(user);
    IdentifyHandled(c, s0, user, uuid);
    assert !IsEmpty(m);
    IterateDispatches(c, s0, Tick(Parsed(m), uuid, result));
  }

  /** Dispatching the identification message of a fresh trial. */
  lemma IdentifyHandled(c: Config, s0: Session, user: string, uuid: string)
    requires NoopAction in c.actionSpace && c.maxEpisodes >= 1 && !c.TrialMode()
    requires user != "" && s0 == Init(c, s0.trialId)
    ensures HandleMessage(c, s0, Identification(user), uuid)
            == Success(Greeted(c, s0, user).(epLog := [Inbound(Identification(user))]))
  {
    IdentifyFresh(c, s0, user, uuid);
    IdentificationLogged(c, s0, Identification(user), uuid, Greeted(c, s0, user));
  }

  /** A message carrying only a user id, sent to a session with an empty log, is identified and logged. */
  lemma IdentificationLogged(c: Config, s0: Session, m: Message, uuid: string, g: Session)
    requires Identify(c, s0, m, uuid) == Success(g) && s0.epLog == []
    requires !Present(m.command) && !Present(m.changeFrameRate) && !Present(m.action)
    ensures HandleMessage(c, s0, m, uuid) == Success(g.(epLog := [Inbound(m)]))
  {
    WinningFieldHandled(c, s0, m, uuid);
    assert s0.epLog + [Inbound(m)] == [Inbound(m)];
  }

  /** The identification step for a fresh trial's first message. */
  lemma IdentifyFresh(c: Config, s0: Session, user: string, uuid: string)
    requires NoopAction in c.actionSpace && c.maxEpisodes >= 1 && !c.TrialMode()
    requires user != "" && s0 == Init(c, s0.trialId)
    ensures Identify(c, s0, Identification(user), uuid) == Success(Greeted(c, s0, user))
  {
    assert Adopts(s0, Identification(user)) && AdoptedId(user, uuid) == user;
    WelcomeFresh(c, s0, user);
  }

  /** An identified, paused session after `start` and one step with `result`. */
  function Started(s1: Session, start: string, result: StepResult): Session {
    s1.(play := true, frameId := s1.frameId + 1,
        sent := s1.sent + [Frame(s1.frameId + 1)],
        agentCalls := s1.agentCalls + [Render, Step(s1.humanAction)],
        epLog := s1.epLog + [Inbound(StartCommand(start)), Stepped(result)])
  }

  /** Second message: `start` sets `play`, so the next frame is rendered and the agent steps. */
  lemma StartStep(c: Config, s1: Session, start: string, uuid: string, result: StepResult)
    requires Normalize(start) == "start" && !s1.done && !s1.play && Identified(s1) && !result.done
    ensures Iterate(c, s1, Tick(Parsed(StartCommand(start)), uuid, result)) == Success(Started(s1, start, result))
  {
    var m := StartCommand(start);
    assert Present(m.command);
    assert !IsEmpty(m);
    var h := s1.(play := true, epLog := s1.epLog + [Inbound(m)]);
    assert HandleMessage(c, s1, m, uuid) == Success(h);
    assert Receive(c, s1, Tick(Parsed(m), uuid, result)) == Success(h);
    StartedAdvance(c, h, s1, start, result);
  }

  lemma StartedAdvance(c: Config, h: Session, s1: Session, start: string, result: StepResult)
    requires h == s1.(play := true, epLog := s1.epLog + [Inbound(StartCommand(start))]) && !result.done
    ensures Advance(c, h, result) == Success(Started(s1, start, result))
  {
    var f := RenderFrame(h);
    assert TakeStep(c, f, result) == Success(f.(agentCalls := f.agentCalls + [Step(s1.humanAction)],
                                                epLog := f.epLog + [Stepped(result)]));
    assert f.agentCalls + [Step(s1.humanAction)] == s1.agentCalls + [Render, Step(s1.humanAction)];
    assert f.epLog + [Stepped(result)] == s1.epLog + [Inbound(StartCommand(start)), Stepped(result)];
  }

  /**
   * A playing session with an open file after `pick` selected action 1, a step
   * ended the episode, its log was pickled and the trial ended.
   */
  function Finished(c: Config, s2: Session, pick: string, result: StepResult): Session
    requires s2.outfile.Open?
  {
    s2.(done := true, play := false, humanAction := 1, frameId := s2.frameId + 1,
        sent := s2.sent + [Frame(s2.frameId + 1), Done,
                           Upload(c.projectId, s2.userId, s2.filename, s2.path, None)],
        agentCalls := s2.agentCalls + [Render, Step(1), Close],
        outfile := Closed(s2.outfile.path),
        written := s2.written + [Dump(s2.outfile.path, EpisodeRecord(s2.epLog + [Inbound(Choice(pick)), Stepped(result)]))],
        epLog := [])
  }

  /**
   * Third message: `pick` selects action 1; the step reports the episode
   * done, so the episode log is pickled and the reset that follows ends the
   * trial, closing and handing off the file.
   */
  lemma FinishStep(c: Config, s2: Session, pick: string, uuid: string, result: StepResult)
    requires |c.actionSpace| >= 2 && c.actionSpace[0] != c.actionSpace[1]
    requires pick != "" && Normalize(pick) == c.actionSpace[1]
    requires !c.TrialMode() && c.maxEpisodes <= s2.episode
    requires !s2.done && s2.play && Identified(s2)
    requires s2.outfile.Open? && result.done
    ensures Iterate(c, s2, Tick(Parsed(Choice(pick)), uuid, result)) == Success(Finished(c, s2, pick, result))
  {
    var m := Choice(pick);
    PickSelectsOne(c, s2, pick);
    assert !IsEmpty(m);
    var h := s2.(humanAction := 1, epLog := s2.epLog + [Inbound(m)]);
    assert HandleMessage(c, s2, m, uuid) == Success(h);
    assert Receive(c, s2, Tick(Parsed(m), uuid, result)) == Success(h);
    FinishedAdvance(c, h, s2, pick, result);
  }

  lemma FinishedAdvance(c: Config, h: Session, s2: Session, pick: string, result: StepResult)
    requires !c.TrialMode() && c.maxEpisodes <= s2.episode && s2.outfile.Open? && result.done
    requires h == s2.(humanAction := 1, epLog := s2.epLog + [Inbound(Choice(pick))]) && h.play
    ensures Advance(c, h, result) == Success(Finished(c, s2, pick, result))
  {
    var f := RenderFrame(h);
    FinishingTakeStep(c, f, result);
    RenderedFinish(h, s2, pick, result);
    EpisodeEnds(c, f.(agentCalls := f.agentCalls + [Step(1)], epLog := f.epLog + [Stepped(result)]), s2, pick, result);
  }

  /** A step that finishes the episode is logged and then ends the episode. */
  lemma FinishingTakeStep(c: Config, s: Session, result: StepResult)
    requires result.done
    ensures TakeStep(c, s, result)
            == EndEpisode(c, s.(agentCalls := s.agentCalls + [Step(s.humanAction)], epLog := s.epLog + [Stepped(result)]))
  {
  }

  /** The session the finishing step of the script saves and resets. */
  lemma RenderedFinish(h: Session, s2: Session, pick: string, result: StepResult)
    requires h == s2.(humanAction := 1, epLog := s2.epLog + [Inbound(Choice(pick))])
    ensures var f := RenderFrame(h);
            f.(agentCalls := f.agentCalls + [Step(1)], epLog := f.epLog + [Stepped(result)])
            == s2.(humanAction := 1, frameId := s2.frameId + 1, sent := s2.sent + [Frame(s2.frameId + 1)],
                   agentCalls := s2.agentCalls + [Render, Step(1)],
                   epLog := s2.epLog + [Inbound(Choice(pick)), Stepped(result)])
  {
    var f := RenderFrame(h);
    assert f.agentCalls + [Step(1)] == s2.agentCalls + [Render, Step(1)];
    assert f.epLog + [Stepped(result)] == s2.epLog + [Inbound(Choice(pick)), Stepped(result)];
  }

  /** Saving the finished episode and resetting with no episodes left ends the trial. */
  lemma EpisodeEnds(c: Config, g: Session, s2: Session, pick: string, result: StepResult)
    requires !c.TrialMode() && c.maxEpisodes <= s2.episode && s2.outfile.Open?
    requires g == s2.(humanAction := 1, frameId := s2.frameId + 1, sent := s2.sent + [Frame(s2.frameId + 1)],
                      agentCalls := s2.agentCalls + [Render, Step(1)],
                      epLog := s2.epLog + [Inbound(Choice(pick)), Stepped(result)])
    ensures EndEpisode(c, g) == Success(Finished(c, s2, pick, result))
  {
    var e := SaveEntry(c, g).value;
    assert e == g.(epLog := [], written := g.written + [Dump(g.outfile.path, EpisodeRecord(g.epLog))]);
    assert EndEpisode(c, g) == Reset(c, e);
    assert Reset(c, e) == End(c, e);
    TrialEnds(c, e, s2, pick, result);
  }

  /** Ending the trial after the last episode's log was pickled closes and hands off its file. */
  lemma TrialEnds(c: Config, e: Session, s2: Session, pick: string, result: StepResult)
    requires !c.TrialMode() && s2.outfile.Open?
    requires e == s2.(humanAction := 1, frameId := s2.frameId + 1, sent := s2.sent + [Frame(s2.frameId + 1)],
                      agentCalls := s2.agentCalls + [Render, Step(1)], epLog := [],
                      written := s2.written + [Dump(s2.outfile.path,
                                                    EpisodeRecord(s2.epLog + [Inbound(Choice(pick)), Stepped(result)]))])
    ensures End(c, e) == Success(Finished(c, s2, pick, result))
  {
    var d := End(c, e).value;
    assert d == e.(done := true, play := false, outfile := Closed(e.outfile.path),
                   sent := e.sent + [Done, EndUpload(c, e)], agentCalls := e.agentCalls + [Close]);
    assert d.sent == s2.sent + [Frame(s2.frameId + 1), Done, EndUpload(c, s2)];
    assert d.agentCalls == s2.agentCalls + [Render, Step(1), Close];
  }

  /** Three successful iterations from a running session make a run of three ticks. */
  lemma RunThree(c: Config, s0: Session, s1: Session, s2: Session, s3: Session, t1: Tick, t2: Tick, t3: Tick)
    requires !s0.done && !s1.done && !s2.done
    requires Iterate(c, s0, t1) == Success(s1) && Iterate(c, s1, t2) == Success(s2)
    requires Iterate(c, s2, t3) == Success(s3)
    ensures Run(c, s0, [t1, t2, t3]) == Success(s3)
  {
    assert [t1, t2, t3][1..] == [t2, t3];
    assert [t2, t3][1..] == [t3];
    assert Run(c, s2, [t3]) == Run(c, s3, []);
    assert Run(c, s1, [t2, t3]) == Run(c, s2, [t3]);
  }

  /** The messages the three steps send, as one list. */
  lemma SentTrace(sent: seq<OutMsg>, ui: seq<string>, upload: OutMsg)
    requires sent == [UI(ui), Frame(1)] + [Frame(2)] + [Frame(3), Done, upload]
    ensures sent == [UI(ui), Frame(1), Frame(2), Frame(3), Done, upload]
  {
  }

  /** The agent calls of the three steps, as one list. */
  lemma CallsTrace(calls: seq<AgentCall>, game: Option<string>)
    requires calls == [Start(game)] + [ResetEnv, Render] + [Render, Step(0)] + [Render, Step(1), Close]
    ensures calls == [Start(game), ResetEnv, Render, Render, Step(0), Render, Step(1), Close]
  {
  }

  /** The log of the three messages and two steps, as one list. */
  lemma LogTrace(log: seq<Entry>, a: Entry, b: Entry, c: Entry, d: Entry, e: Entry)
    requires log == [a] + [b, c] + [d, e]
    ensures log == [a, b, c, d, e]
  {
  }

  /**
   * With one episode allowed: identification sends the UI, opens the first
   * episode's file and sends frame 1; `start` plays with `noop`; the pick
   * selects action 1; the step that finishes the episode pickles the episode
   * log and the reset that follows ends the trial after exactly one episode.
   */
  lemma OneEpisodeTrial(c: Config, trialId: string, user: string, start: string, pick: string,
                        uuid: string, running: StepResult, finished: StepResult)
    requires Script(c, user, start, pick) && !running.done && finished.done
    ensures var r := Run(c, Init(c, trialId),
                         [Tick(Parsed(Identification(user)), uuid, running),
                          Tick(Parsed(StartCommand(start)), uuid, running),
                          Tick(Parsed(Choice(pick)), uuid, finished)]);
            var file := DataDir + FirstFile(user);
            && r.Success?
            && r.value.done && !r.value.play
            && r.value.episode == 1 && r.value.frameId == 3 && r.value.humanAction == 1
            && r.value.userId == Some(user)
            && r.value.sent == [UI(c.ui), Frame(1), Frame(2), Frame(3), Done,
                                Upload(c.projectId, Some(user), Some(FirstFile(user)), Some(file), None)]
            && r.value.agentCalls == [Start(c.game), ResetEnv, Render, Render, Step(0),
                                      Render, Step(1), Close]
            && r.value.written == [Dump(file, EpisodeRecord([Inbound(Identification(user)),
                                                            Inbound(StartCommand(start)), Stepped(running),
                                                            Inbound(Choice(pick)), Stepped(finished)]))]
  {
    ThreeTicks(c, trialId, user, start, pick, uuid, running, finished);
    FinalState(c, trialId, user, start, pick, running, finished);
  }

  /** The state the one-episode script ends in. */
  function ScriptEnd(c: Config, trialId: string, user: string, start: string, pick: string,
                     running: StepResult, finished: StepResult): Session
    requires NoopAction in c.actionSpace
  {
    var s0 := Init(c, trialId);
    var s1 := Greeted(c, s0, user).(epLog := [Inbound(Identification(user))]);
    Finished(c, Started(s1, start, running), pick, finished)
  }

  /** The three ticks of the one-episode script reach ScriptEnd. */
  lemma ThreeTicks(c: Config, trialId: string, user: string, start: string, pick: string,
                   uuid: string, running: StepResult, finished: StepResult)
    requires Script(c, user, start, pick) && !running.done && finished.done
    ensures Run(c, Init(c, trialId),
                [Tick(Parsed(Identification(user)), uuid, running),
                 Tick(Parsed(StartCommand(start)), uuid, running),
                 Tick(Parsed(Choice(pick)), uuid, finished)])
            == Success(ScriptEnd(c, trialId, user, start, pick, running, finished))
  {
    var s0 := Init(c, trialId);
    IdentifyStep(c, s0, user, uuid, running);
    var s1 := Greeted(c, s0, user).(epLog := [Inbound(Identification(user))]);
    StartStep(c, s1, start, uuid, running);
    var s2 := Started(s1, start, running);
    FinishStep(c, s2, pick, uuid, finished);
    RunThree(c, s0, s1, s2, Finished(c, s2, pick, finished),
             Tick(Parsed(Identification(user)), uuid, running),
             Tick(Parsed(StartCommand(start)), uuid, running),
             Tick(Parsed(Choice(pick)), uuid, finished));
  }

  /** What ScriptEnd has sent, called and written. */
  lemma FinalState(c: Config, trialId: string, user: string, start: string, pick: string,
                   running: StepResult, finished: StepResult)
    requires Script(c, user, start, pick)
    ensures var r := ScriptEnd(c, trialId, user, start, pick, running, finished);
            var file := DataDir + FirstFile(user);
            && r.done && !r.play
            && r.episode == 1 && r.frameId == 3 && r.humanAction == 1
            && r.userId == Some(user)
            && r.sent == [UI(c.ui), Frame(1), Frame(2), Frame(3), Done,
                          Upload(c.projectId, Some(user), Some(FirstFile(user)), Some(file), None)]
            && r.agentCalls == [Start(c.game), ResetEnv, Render, Render, Step(0), Render, Step(1), Close]
            && r.written == [Dump(file, EpisodeRecord([Inbound(Identification(user)),
                                                      Inbound(StartCommand(start)), Stepped(running),
                                                      Inbound(Choice(pick)), Stepped(finished)]))]
  {
    var s0 := Init(c, trialId);
    NoopFirst(c, s0);
    var s1 := Greeted(c, s0, user).(epLog := [Inbound(Identification(user))]);
    var s2 := Started(s1, start, running);
    var s3 := Finished(c, s2, pick, finished);
    var file := DataDir + FirstFile(user);
    SentTrace(s3.sent, c.ui, Upload(c.projectId, Some(user), Some(FirstFile(user)), Some(file), None));
    CallsTrace(s3.agentCalls, c.game);
    LogTrace(s2.epLog + [Inbound(Choice(pick)), Stepped(finished)],
             Inbound(Identification(user)), Inbound(StartCommand(start)), Stepped(running),
             Inbound(Choice(pick)), Stepped(finished));
  }

  /** In an action space that starts with `noop`, a fresh session holds action 0. */
  lemma NoopFirst(c: Config, s0: Session)
    requires |c.actionSpace| >= 1 && c.actionSpace[0] == NoopAction && s0 == Init(c, s0.trialId)
    ensures s0.humanAction == 0
  {
  }

  /**
   * Identification when the episode budget is already spent ends the trial
   * at once, and still renders one frame after closing the agent.
   */
  lemma IdentificationEndsSpentTrial(c: Config, s: Session, m: Message, uuid: string)
    requires Adopts(s, m) && TrialDone(c, s) && !c.TrialMode()
    ensures var r := Identify(c, s, m, uuid);
            && r.Success? && r.value.done && !r.value.play
            && r.value.agentCalls == s.agentCalls + [Close, Render]
  {
    var s1 := SendUI(c, s.(userId := Some(AdoptedId(m.userId.value, uuid))));
    assert Reset(c, s1) == End(c, s1);
  }

  /**
   * `done` is not terminal within one message: when `maxEpisodes <= 0`, a
   * first message carrying both a user id and `start` ends the trial during
   * identification and then sets `play` again, so the same iteration renders
   * and steps the agent after it was closed.
   */
  lemma PlayResumesAfterEnd(c: Config, trialId: string, user: string, start: string,
                            uuid: string, result: StepResult)
    requires NoopAction in c.actionSpace && c.maxEpisodes <= 0 && !c.TrialMode()
    requires user != "" && Normalize(start) == "start" && !result.done
    ensures var s0 := Init(c, trialId);
            var r := Iterate(c, s0, Tick(Parsed(Say(Some(user), Some(start), None)), uuid, result));
            && r.Success? && r.value.done && r.value.play
            && r.value.agentCalls == s0.agentCalls + [Close, Render, Render, Step(s0.humanAction)]
  {
    SpentTrialResumes(c, Init(c, trialId), user, start, uuid, result);
  }

  /** The iteration of PlayResumesAfterEnd, from any unidentified session whose episodes are spent. */
  lemma SpentTrialResumes(c: Config, s0: Session, user: string, start: string, uuid: string, result: StepResult)
    requires !s0.done && s0.userId.None? && TrialDone(c, s0) && !c.TrialMode()
    requires Normalize(start) == "start" && !result.done
    ensures var r := Iterate(c, s0, Tick(Parsed(Say(Some(user), Some(start), None)), uuid, result));
            && r.Success? && r.value.done && r.value.play
            && r.value.agentCalls == s0.agentCalls + [Close, Render, Render, Step(s0.humanAction)]
  {
    var m := Say(Some(user), Some(start), None);
    var t := Tick(Parsed(m), uuid, result);
    SpentStartHandled(c, s0, user, start, uuid);
    var h := HandleMessage(c, s0, m, uuid).value;
    assert !IsEmpty(m);
    assert Receive(c, s0, t) == Success(h);
    PlayingStep(c, h, result);
    assert Iterate(c, s0, t) == Advance(c, h, result);
    assert h.humanAction == s0.humanAction;
    ResumedCalls(s0.agentCalls, h.agentCalls, Advance(c, h, result).value.agentCalls, s0.humanAction);
  }

  /** The agent calls of PlayResumesAfterEnd, as one list. */
  lemma ResumedCalls(base: seq<AgentCall>, mid: seq<AgentCall>, calls: seq<AgentCall>, action: nat)
    requires mid == base + [Close, Render] && calls == mid + [Render, Step(action)]
    ensures calls == base + [Close, Render, Render, Step(action)]
  {
  }

  /** A playing iteration whose step does not finish the episode renders, steps, and keeps the flags. */
  lemma PlayingStep(c: Config, h: Session, result: StepResult)
    requires h.play && !result.done
    ensures var r := Advance(c, h, result);
            && r.Success? && r.value.done == h.done && r.value.play
            && r.value.agentCalls == h.agentCalls + [Render, Step(h.humanAction)]
  {
    var f := RenderFrame(h);
    assert TakeStep(c, f, result).value.agentCalls == f.agentCalls + [Step(h.humanAction)];
  }

  /** Dispatching a user id with `start` in a spent trial leaves it done, playing, and with the agent closed. */
  lemma SpentStartHandled(c: Config, s0: Session, user: string, start: string, uuid: string)
    requires Adopts(s0, Say(Some(user), Some(start), None)) && TrialDone(c, s0) && !c.TrialMode()
    requires Normalize(start) == "start"
    ensures var h := HandleMessage(c, s0, Say(Some(user), Some(start), None), uuid);
            && h.Success? && h.value.done && h.value.play
            && h.value.agentCalls == s0.agentCalls + [Close, Render]
  {
    var m := Say(Some(user), Some(start), None);
    IdentificationEndsSpentTrial(c, s0, m, uuid);
    var i := Identify(c, s0, m, uuid).value;
    assert Present(m.command);
    assert Act(c, i, m) == Success(i.(play := true));
  }
}

=== FILE: sessions.dfy ===
/**
 * The state of one `Trial`: its counters and flags, its logs, the telemetry
 * file it holds, and the effects it has had on its collaborators so far
 * (messages written to the pipe, calls into the agent, records pickled).
 */
module Sessions {
  import opened Wrappers
  import opened Text
  import opened Settings
  import opened Protocol

  /**
   * The `outfile` field. A closed file object stays in the field and is still
   * truthy, so `Closed` is distinct from `NoFile`.
   */
  datatype FileState = NoFile | Open(path: string) | Closed(path: string)

  /** The exceptions `cPickle.dump` raises on a missing or closed file. */
  datatype Fault =
    | WriteWithoutFile   // dump into None: TypeError
    | WriteToClosedFile  // dump into a closed file: ValueError

  /**
   * One trial. `trialLogRefs` is the length of `trial_log`: in whole-trial
   * mode every element of `trial_log` is the one `ep_log` list object, so its
   * value is `trialLogRefs` copies of the current `epLog` (see TrialLog).
   */
  datatype Session = Session(
    trialId: string,
    frameId: nat,
    humanAction: nat,
    episode: nat,
    done: bool,
    play: bool,
    epLog: seq<Entry>,
    trialLogRefs: nat,
    framerate: int,
    userId: Option<string>,
    outfile: FileState,
    filename: Option<string>,
    path: Option<string>,
    sent: seq<OutMsg>,
    agentCalls: seq<AgentCall>,
    written: seq<Dump>)

  /** `n` references to the one list `log`, as the pickler sees them. */
  function Copies(n: nat, log: seq<Entry>): (logs: seq<seq<Entry>>)
    ensures |logs| == n
    ensures forall i :: 0 <= i < |logs| ==> logs[i] == log
  {
    seq(n, _ => log)
  }

  /** The value `trial_log` holds: `trialLogRefs` references to `ep_log`. */
  function TrialLog(s: Session): (log: seq<seq<Entry>>)
    ensures |log| == s.trialLogRefs
    ensures forall i :: 0 <= i < |log| ==> log[i] == s.epLog
  {
    Copies(s.trialLogRefs, s.epLog)
  }

  /** Python truthiness of `self.userId`. */
  predicate Identified(s: Session) {
    s.userId.Some? && s.userId.value != ""
  }

  /** The facts every reachable session satisfies between two loop iterations. */
  predicate Valid(c: Config, s: Session) {
    && s.humanAction < |c.actionSpace|
    && (s.episode <= c.maxEpisodes || s.episode == 0)
    && (s.userId.Some? ==> s.userId.value != "")
    && FrameIds(s.sent) == Upto(s.frameId)
    && (!c.TrialMode() ==> s.trialLogRefs == 0)
  }

  /** `Trial.__init__` followed by `start()`: a fresh session that has started the agent. */
  function Init(c: Config, trialId: string): (s: Session)
    requires NoopAction in c.actionSpace
    ensures Valid(c, s)
    ensures c.actionSpace[s.humanAction] == NoopAction && NoopAction !in c.actionSpace[..s.humanAction]
    ensures s.frameId == 0 && s.episode == 0 && !s.done && !s.play && s.userId.None?
    ensures s.framerate == c.startingFrameRate
    ensures s.sent == [] && s.written == [] && s.agentCalls == [Start(c.game)]
    ensures s.trialId == trialId && s.epLog == [] && s.trialLogRefs == 0 && TrialLog(s) == []
    ensures s.outfile == NoFile && s.filename.None? && s.path.None?
  {
    var noop := IndexOf(c.actionSpace, NoopAction).value;
    Session(trialId, 0, noop, 0, false, false, [], 0, c.startingFrameRate, None,
            NoFile, None, None, [], [Start(c.game)], [])
  }
}

=== FILE: settings.dfy ===
/**
 * The trial configuration, with every default the controller applies when a
 * key is missing already resolved. Reading and parsing the YAML file is not
 * part of this model; a `RawSettings` value stands for what it yields.
 */
module Settings {
  import opened Wrappers

  const DefaultStartingFrameRate: int := 30
  const DefaultFrameRateStepSize: int := 5
  const DefaultMinFrameRate: int := 1
  const DefaultMaxFrameRate: int := 90
  const DefaultMaxEpisodes: int := 20
  const DefaultUI: seq<string> := ["left", "right", "up", "down", "start", "pause"]

  /** The action name the initial human action is looked up by. */
  const NoopAction: string := "noop"

  /** The `dataFile` value that selects whole-trial logging; any other value logs per episode. */
  const TrialDataFile: string := "trial"

  /** The configuration keys as read from the file: absent keys are None. */
  datatype RawSettings = RawSettings(
    actionSpace: seq<string>,
    startingFrameRate: Option<int>,
    allowFrameRateChange: Option<bool>,
    frameRateStepSize: Option<int>,
    minFrameRate: Option<int>,
    maxFrameRate: Option<int>,
    maxEpisodes: Option<int>,
    dataFile: Option<string>,
    s3upload: Option<bool>,
    bucket: Option<string>,
    projectId: Option<string>,
    game: Option<string>,
    ui: Option<seq<string>>)

  /** The configuration the controller acts on. */
  datatype Config = Config(
    actionSpace: seq<string>,
    startingFrameRate: int,
    allowFrameRateChange: bool,
    frameRateStepSize: int,
    minFrameRate: int,
    maxFrameRate: int,
    maxEpisodes: int,
    dataFile: Option<string>,
    s3upload: bool,
    bucket: Option<string>,
    projectId: Option<string>,
    game: Option<string>,
    ui: seq<string>)
  {
    /** Whole-trial logging: `ep_log` accumulates into `trial_log`, flushed once at the end. */
    predicate TrialMode() {
      dataFile == Some(TrialDataFile)
    }
  }

  /**
   * Applies the controller's `config.get(key, default)` lookups. A missing
   * `allowFrameRateChange` or `s3upload` is falsy.
   */
  function Resolve(raw: RawSettings): (c: Config)
    ensures raw.maxEpisodes.None? ==> c.maxEpisodes == 20
    ensures raw.startingFrameRate.None? ==> c.startingFrameRate == 30
    ensures raw.frameRateStepSize.None? ==> c.frameRateStepSize == 5
    ensures raw.minFrameRate.None? ==> c.minFrameRate == 1
    ensures raw.maxFrameRate.None? ==> c.maxFrameRate == 90
    ensures raw.allowFrameRateChange.None? ==> !c.allowFrameRateChange
    ensures raw.s3upload.None? ==> !c.s3upload
    ensures raw.ui.None? ==> c.ui == DefaultUI
    ensures raw.maxEpisodes.Some? ==> c.maxEpisodes == raw.maxEpisodes.value
    ensures raw.startingFrameRate.Some? ==> c.startingFrameRate == raw.startingFrameRate.value
    ensures raw.frameRateStepSize.Some? ==> c.frameRateStepSize == raw.frameRateStepSize.value
    ensures raw.minFrameRate.Some? ==> c.minFrameRate == raw.minFrameRate.value
    ensures raw.maxFrameRate.Some? ==> c.maxFrameRate == raw.maxFrameRate.value
    ensures raw.allowFrameRateChange.Some? ==> c.allowFrameRateChange == raw.allowFrameRateChange.value
    ensures raw.s3upload.Some? ==> c.s3upload == raw.s3upload.value
    ensures raw.ui.Some? ==> c.ui == raw.ui.value
    ensures c.actionSpace == raw.actionSpace && c.dataFile == raw.dataFile && c.bucket == raw.bucket
            && c.projectId == raw.projectId && c.game == raw.game
  {
    Config(
      raw.actionSpace,
      raw.startingFrameRate.GetOr(DefaultStartingFrameRate),
      raw.allowFrameRateChange.GetOr(false),
      raw.frameRateStepSize.GetOr(DefaultFrameRateStepSize),
      raw.minFrameRate.GetOr(DefaultMinFrameRate),
      raw.maxFrameRate.GetOr(DefaultMaxFrameRate),
      raw.maxEpisodes.GetOr(DefaultMaxEpisodes),
      raw.dataFile,
      raw.s3upload.GetOr(false),
      raw.bucket,
      raw.projectId,
      raw.game,
      raw.ui.GetOr(DefaultUI))
  }
}

=== FILE: text.dfy ===
/**
 * The Python string and list primitives the session controller relies on:
 * `str.strip()`, `str.lower()`, `int()` on a token, `list.index()` and the
 * decimal rendering used when formatting file names.
 */
module Text {
  import opened Wrappers

  /** Python's `str.isspace()` on one character (every character `strip()` removes). */
  predicate IsSpace(ch: char) {
    || ch == ' '
    || '\U{9}' <= ch <= '\U{D}'
    || '\U{1C}' <= ch <= '\U{1F}'
    || ch == '\U{85}' || ch == '\U{A0}' || ch == '\U{1680}'
    || '\U{2000}' <= ch <= '\U{200A}'
    || ch == '\U{2028}' || ch == '\U{2029}'
    || ch == '\U{202F}' || ch == '\U{205F}' || ch == '\U{3000}'
  }

  predicate AllSpace(s: string) {
    forall i :: 0 <= i < |s| ==> IsSpace(s[i])
  }

  /** Removes leading whitespace: the result is the suffix that starts at the first non-space. */
  function TrimStart(s: string): (r: string)
    ensures |r| <= |s| && r == s[|s| - |r|..]
    ensures AllSpace(s[..|s| - |r|])
    ensures |r| > 0 ==> !IsSpace(r[0])
  {
    if |s| > 0 && IsSpace(s[0]) then TrimStart(s[1..]) else s
  }

  /** Removes trailing whitespace: the result is the prefix that ends at the last non-space. */
  function TrimEnd(s: string): (r: string)
    ensures |r| <= |s| && r == s[..|r|]
    ensures AllSpace(s[|r|..])
    ensures |r| > 0 ==> !IsSpace(r[|r| - 1])
  {
    if |s| > 0 && IsSpace(s[|s| - 1]) then TrimEnd(s[..|s| - 1]) else s
  }

  /** The number of whitespace characters `s` starts with. */
  function LeadingSpaces(s: string): (n: nat)
    ensures n <= |s| && AllSpace(s[..n])
    ensures n < |s| ==> !IsSpace(s[n])
  {
    if |s| > 0 && IsSpace(s[0]) then 1 + LeadingSpaces(s[1..]) else 0
  }

  /**
   * Python's `str.strip()` with no argument. StripSlice and StripTail show it
   * is the slice between the leading and the trailing whitespace.
   */
  function Strip(s: string): (r: string)
    ensures |r| <= |s|
    ensures |r| > 0 ==> !IsSpace(r[0]) && !IsSpace(r[|r| - 1])
  {
    var t := TrimStart(s);
    var r := TrimEnd(t);
    assert |r| > 0 ==> r[0] == t[0];
    r
  }

  /** The stripped text is the slice of `s` that starts after its leading whitespace. */
  lemma StripSlice(s: string)
    ensures var k, r := LeadingSpaces(s), Strip(s);
            k + |r| <= |s| && r == s[k..k + |r|]
  {
    StripIsPrefixOfTrim(s);
    SuffixPrefix(s, LeadingSpaces(s), |Strip(s)|);
  }

  /** Strip keeps a prefix of what TrimStart keeps, and TrimStart keeps what follows the leading whitespace. */
  lemma StripIsPrefixOfTrim(s: string)
    ensures var t := TrimStart(s);
            && LeadingSpaces(s) <= |s| && t == s[LeadingSpaces(s)..]
            && |Strip(s)| <= |t| && Strip(s) == t[..|Strip(s)|]
  {
    LeadingMatchesTrim(s);
  }

  /** A prefix of a suffix is a slice. */
  lemma SuffixPrefix<T>(s: seq<T>, k: nat, n: nat)
    requires k + n <= |s|
    ensures s[k..][..n] == s[k..k + n]
  {
  }

  /** Everything after the stripped text is whitespace. */
  lemma StripTail(s: string)
    ensures var k, r := LeadingSpaces(s), Strip(s);
            k + |r| <= |s| && AllSpace(s[k + |r|..])
  {
    var t := TrimStart(s);
    var r := TrimEnd(t);
    LeadingMatchesTrim(s);
    SuffixSuffix(s, |s| - |t|, |r|);
  }

  /** A suffix of a suffix is a suffix. */
  lemma SuffixSuffix<T>(s: seq<T>, k: nat, n: nat)
    requires k + n <= |s|
    ensures s[k..][n..] == s[k + n..]
  {
  }

  /** TrimStart drops exactly the leading whitespace. */
  lemma {:induction false} LeadingMatchesTrim(s: string)
    ensures |s| - |TrimStart(s)| == LeadingSpaces(s)
  {
    if |s| > 0 && IsSpace(s[0]) {
      LeadingMatchesTrim(s[1..]);
    }
  }

  /** Stripping twice is stripping once. */
  lemma StripIdempotent(s: string)
    ensures Strip(Strip(s)) == Strip(s)
  {
    var r := Strip(s);
    if |r| > 0 {
      assert TrimStart(r) == r;
      assert TrimEnd(r) == r;
    }
  }

  predicate IsUpper(ch: char) {
    'A' <= ch <= 'Z'
  }

  /** ASCII lower-casing of one character. */
  function LowerChar(ch: char): (r: char)
    ensures !IsUpper(r)
    ensures IsUpper(ch) ==> r as int == ch as int + 32
    ensures !IsUpper(ch) ==> r == ch
  {
    if IsUpper(ch) then (ch as int + 32) as char else ch
  }

  /** Python's `str.lower()`, restricted to the ASCII letters. */
  function Lower(s: string): (r: string)
    ensures |r| == |s|
    ensures forall i :: 0 <= i < |s| ==> r[i] == LowerChar(s[i])
    ensures forall i :: 0 <= i < |r| ==> !IsUpper(r[i])
  {
    if |s| == 0 then [] else [LowerChar(s[0])] + Lower(s[1..])
  }

  /** The normalisation every inbound token goes through: `token.strip().lower()`. */
  function Normalize(s: string): (r: string)
    ensures forall i :: 0 <= i < |r| ==> !IsUpper(r[i])
    ensures |r| > 0 ==> !IsSpace(r[0]) && !IsSpace(r[|r| - 1])
    ensures |r| <= |s|
  {
    var t := Strip(s);
    var r := Lower(t);
    if |t| > 0 then
      assert r[0] == LowerChar(t[0]) && r[|t| - 1] == LowerChar(t[|t| - 1]);
      LowerKeepsSpace(t[0]);
      LowerKeepsSpace(t[|t| - 1]);
      r
    else r
  }

  /** Lower-casing never turns a character into whitespace or back. */
  lemma LowerKeepsSpace(ch: char)
    ensures IsSpace(LowerChar(ch)) <==> IsSpace(ch)
  {
  }

  /** A token without whitespace or upper-case letters is already normalised. */
  lemma NormalizeFixedPoint(w: string)
    requires forall i :: 0 <= i < |w| ==> !IsSpace(w[i]) && !IsUpper(w[i])
    ensures Normalize(w) == w
  {
    if |w| > 0 {
      assert TrimStart(w) == w;
      assert TrimEnd(w) == w;
    }
    assert Lower(w) == w;
  }

  /** Python's `list.index(x)`: the position of the first occurrence, or None when absent. */
  function IndexOf<T(==)>(xs: seq<T>, x: T): (r: Option<nat>)
    ensures r.Some? <==> x in xs
    ensures r.Some? ==> r.value < |xs| && xs[r.value] == x && x !in xs[..r.value]
  {
    if |xs| == 0 then None
    else if xs[0] == x then Some(0)
    else match IndexOf(xs[1..], x)
      case None => None
      case Some(i) =>
        assert xs[..i + 1] == [xs[0]] + xs[1..][..i];
        Some(i + 1)
  }

  predicate IsDigit(ch: char) {
    '0' <= ch <= '9'
  }

  predicate AllDigits(s: string) {
    forall i :: 0 <= i < |s| ==> IsDigit(s[i])
  }

  function DigitValue(ch: char): (d: nat)
    requires IsDigit(ch)
    ensures d < 10
  {
    ch as int - '0' as int
  }

  function DigitChar(d: nat): (ch: char)
    requires d < 10
    ensures IsDigit(ch) && DigitValue(ch) == d
  {
    ('0' as int + d) as char
  }

  /** The value of a string of decimal digits, most significant first. */
  function DigitsValue(s: string): nat
    requires AllDigits(s)
  {
    if |s| == 0 then 0 else DigitsValue(s[..|s| - 1]) * 10 + DigitValue(s[|s| - 1])
  }

  /** Python's `str(n)` for a non-negative integer: canonical decimal digits. */
  function NatToString(n: nat): (r: string)
    ensures |r| > 0 && AllDigits(r)
    ensures DigitsValue(r) == n
    ensures r[0] == '0' ==> n == 0
  {
    if n < 10 then [DigitChar(n)]
    else
      var p := NatToString(n / 10);
      var r := p + [DigitChar(n % 10)];
      assert r[..|r| - 1] == p;
      r
  }

  /** Python's `str(i)` for any integer. */
  function IntToString(i: int): (r: string)
    ensures |r| > 0
  {
    if i < 0 then "-" + NatToString(-i) else NatToString(i)
  }

  /**
   * Python's `int(token)` on an already stripped token: an optional sign
   * followed by at least one decimal digit; anything else is a ValueError,
   * modelled as None.
   */
  function ParseInt(s: string): (r: Option<int>)
    ensures r.Some? <==> |s| > 0 && AllDigits(s[1..])
                          && (IsDigit(s[0]) || (|s| > 1 && (s[0] == '+' || s[0] == '-')))
    ensures |s| > 0 && AllDigits(s) ==> r == Some(DigitsValue(s))
    ensures r.Some? && !IsDigit(s[0]) ==>
              r.value == (if s[0] == '-' then -1 else 1) * DigitsValue(s[1..])
    ensures r.Some? && s[0] == '-' ==> r.value <= 0
    ensures r.Some? && s[0] != '-' ==> r.value >= 0
  {
    if |s| > 0 && (s[0] == '+' || s[0] == '-') then
      if |s| > 1 && AllDigits(s[1..]) then
        var v: int := DigitsValue(s[1..]);
        Some(if s[0] == '-' then -v else v)
      else None
    else if |s| > 0 && AllDigits(s) then Some(DigitsValue(s))
    else None
  }

  /** Rendering an integer in decimal and parsing it back gives the integer. */
  lemma ParseIntToString(i: int)
    ensures ParseInt(IntToString(i)) == Some(i)
  {
    var s := IntToString(i);
    if i < 0 {
      assert s[1..] == NatToString(-i);
    }
  }

  /** Decimal rendering is injective, so distinct numbers give distinct strings. */
  lemma NatToStringInjective(m: nat, n: nat)
    requires NatToString(m) == NatToString(n)
    ensures m == n
  {
  }
}

=== FILE: wrappers.dfy ===
/** Failure-compatible helper datatypes shared by the session model. */
module Wrappers {

  /** A value that may be absent: a missing dictionary key, or Python's `None`. */
  datatype Option<+T> = None | Some(value: T) {

    /** The carried value, or `default` when absent. */
    function GetOr(default: T): T {
      match this
      case Some(v) => v
      case None => default
    }
  }

  /** Either a result or the error that aborted the computation; usable with `:-`. */
  datatype Result<+R, +E> = Success(value: R) | Failure(error: E) {

    predicate IsFailure() {
      Failure?
    }

    function PropagateFailure<U>(): Result<U, E>
      requires Failure?
    {
      Failure(error)
    }

    function Extract(): R
      requires Success?
    {
      value
    }
  }
}
